=== FILE: README.md ===
# masserstein: the bookkeeping of `estimate_proportions`

This project is a Dafny model of the parts of masserstein's simplex-based deconvolution
that surround the linear program. masserstein estimates how much of each theoretical
(isotopic envelope) spectrum is present in a normalized experimental spectrum. The
model covers:

- **Resampler**: `intensity_generator`. It walks a sorted peak list along a strictly
  increasing mass axis and emits one intensity per axis point (0 where there is no peak).
- **MassAxis**: the global mass axis and the interval lengths. The axis is the sorted set
  of all experimental and theoretical masses. The interval lengths are the gaps between
  consecutive axis points.
- **Extraction**: how the solvers read their results.
  - `dualdeconv2` keeps one noise value per axis point with positive experimental
    intensity.
  - `dualdeconv3` completes the experimental noise so that signal plus noise is 1. It
    also completes the theoretical noise so that it sums to the `p0_prime` dual.
- **Prefiltering**: the candidate filter and the sort by lower bound.
  - A candidate survives when the experimental ion current near it is at least MDC
    (Minimum Detectable Current). It must also have an experimental peak within MMD
    (Maximum Mode Distance) of its modal peak.
  - A survivor gets the envelope `(lowest mass, highest mass, index)`. A filtered
    candidate gets `(-1, -1, index)`.
  - The envelopes are then stably sorted by lower bound.
- **Chunking**: the sweep that groups sorted envelopes into chunks.
  - Envelopes whose gap is at most 2·MTD (Maximum Transport Distance) share a chunk.
  - Each chunk gets a mass interval widened by MTD.
  - Leading filtered envelopes get chunk id −1.
- **Splitting**: the single pass over the experimental peaks.
  - Each peak goes to the chunk interval that contains it, or to the noise vector.
  - This pass also computes the total ion current of each chunk.
- **Orchestrator**: `estimate_proportions` as a whole.
  - It validates the inputs and then runs the pipeline.
  - It deconvolves each chunk with up to `max_reruns` attempts.
  - It scatters the chunk's proportions and noise, scaled by the chunk's ion current,
    back into the global arrays.

The linear program is an oracle `solve(chunk, attempt)`, which returns a `Decision` with
a status, proportions and noise values. Three quirks of the code are modelled as written:

- The "previous upper bound" is the last envelope's upper bound, not the running maximum.
- The skip over filtered envelopes stops at the last envelope (`first_present < k-1`).
- There can be fewer experimental chunk lists than chunk bounds.

## Model

All sources are in `masserstein/deconv_simplex.py`.

| member | source | states |
|---|---|---|
| Resampler.IntensityGenerator | masserstein/deconv_simplex.py:13-33 | For a sorted peak list and a strictly increasing axis, the generator fails (indexes past the axis) exactly when the axis is empty and there are peaks. Otherwise it yields one value per axis point, equal to the dense resampling of the peaks. |
| Resampler.DenseValues | masserstein/deconv_simplex.py:13-33 | The resampled value at an axis point that is a peak mass is that peak's intensity. At any other axis point it is 0. |
| Resampler.IntensityAtPeak | masserstein/deconv_simplex.py:21-30 | In a peak list sorted by increasing mass, looking up a peak's own mass gives that peak's intensity. |
| MassAxis.GlobalMassAxis | masserstein/deconv_simplex.py:55-57 | The global axis is strictly increasing. A mass is on it if and only if it is an experimental mass or a mass of some theoretical spectrum. |
| MassAxis.SortedUnion | masserstein/deconv_simplex.py:55-57 | Sorting the set of a list of masses gives a strictly increasing sequence with exactly the list's masses, and no longer than the list. |
| MassAxis.SortedEnumerationUnique | masserstein/deconv_simplex.py:57 | Two strictly increasing sequences with the same elements are equal. So the axis depends only on the set of masses. |
| MassAxis.IntervalLengths | masserstein/deconv_simplex.py:62-64 | There are n−1 interval lengths (none for an empty axis). Each point plus its interval length is the next point. All lengths are positive on a strictly increasing axis. |
| MassAxis.AxisFromGaps | masserstein/deconv_simplex.py:64 | Every axis point is the first point plus the sum of the interval lengths before it. |
| MassAxis.IntervalLengthsSpan | masserstein/deconv_simplex.py:64 | The interval lengths sum to the last axis point minus the first. |
| Extraction.PositiveIndices | masserstein/deconv_simplex.py:113-115 | Lists exactly the axis positions with positive experimental intensity, in increasing order. |
| Extraction.ExperimentalNoise | masserstein/deconv_simplex.py:113-115 | The noise list is as long as the number of axis positions with positive experimental intensity. |
| Extraction.ExperimentalNoiseValues | masserstein/deconv_simplex.py:113-115 | There is one noise value per positive position. The t-th value is the reduced cost at the t-th positive position. |
| Extraction.DensePositiveCount | masserstein/deconv_simplex.py:113-115 | When the axis contains every mass of a sorted peak list, the number of positive resampled values equals the number of peaks with positive intensity. |
| Extraction.NoisePerPositivePeak | masserstein/deconv_simplex.py:110-115 | On the global axis, dualdeconv2 returns exactly one noise value per experimental peak with positive intensity. |
| Extraction.CompleteExperimentalNoise | masserstein/deconv_simplex.py:308-311 | Keeps the n−1 duals in order and appends one value. That value makes the proportions plus the noise sum to exactly 1. |
| Extraction.CompleteTheoreticalNoise | masserstein/deconv_simplex.py:309-313 | Keeps the n−1 duals in order and appends one value. That value makes the theoretical noise sum to the `p0_prime` dual. |
| Prefiltering.Prefilter | masserstein/deconv_simplex.py:501-513 | Candidate i gets `(lowest, highest, i)` when both the current test and the mode test pass, and `(-1, -1, i)` otherwise. The filtered list is strictly increasing and holds exactly the rejected indices. |
| Prefiltering.NoFilteringWhenDisabled | masserstein/deconv_simplex.py:506-507 | With MDC = 0 and MMD = −1, no candidate is filtered and every envelope is the candidate's true mass range. |
| Prefiltering.SentinelMarksFiltered | masserstein/deconv_simplex.py:509-513 | When all masses are non-negative, an envelope has the −1 lower bound if and only if its candidate was filtered. |
| Prefiltering.SortByLower | masserstein/deconv_simplex.py:515 | The sorted envelopes are a permutation of the input, ordered by lower bound. |
| Prefiltering.SortIsStable | masserstein/deconv_simplex.py:515 | The sort is stable: envelopes with equal lower bounds keep their original index order, and the indices stay distinct. |
| Chunking.SkipFiltered | masserstein/deconv_simplex.py:528-533 | Returns the first envelope that is not a sentinel, or the last envelope if all are sentinels. Every candidate skipped before it gets chunk id −1, and every later candidate starts at chunk 0. |
| Chunking.GroupChunks | masserstein/deconv_simplex.py:533-542 | The per-candidate chunk ids and the chunk bounds satisfy the sweep relation. A new chunk opens exactly when an envelope's lower bound exceeds the previous envelope's upper bound by more than 2·MTD. Each chunk's bounds are its first lower bound minus MTD and its last upper bound plus MTD. |
| Chunking.ChunkSweep | masserstein/deconv_simplex.py:521-542 | Fails (an index error) exactly for an empty query. Otherwise it returns chunk ids and bounds satisfying the sweep relation from the first present envelope. |
| Chunking.ViewMonotone | masserstein/deconv_simplex.py:534-541 | In sorted envelope order, chunk ids never decrease from the first present envelope on. |
| Chunking.ChunkIdsFromZero | masserstein/deconv_simplex.py:534-542 | For well-formed envelopes (lower ≤ upper) and MTD ≥ 0, the first present envelope gets chunk id 0. Every envelope after it gets a chunk id in [0, number of bounds). |
| Chunking.ChunkStart | masserstein/deconv_simplex.py:536-539 | Every chunk has an opening envelope: the first present envelope for chunk 0, and otherwise the envelope right after the previous chunk's last one. The chunk's lower bound is that envelope's lower bound minus MTD. |
| Chunking.ChunkEnd | masserstein/deconv_simplex.py:538-542 | Every chunk has a closing envelope that belongs to the chunk and is followed by the next chunk's opener or by the end. The chunk's upper bound is the closing envelope's upper bound plus MTD. |
| Chunking.ChunkNonEmpty | masserstein/deconv_simplex.py:536-542 | For sorted, well-formed envelopes and MTD ≥ 0, every chunk interval has lower ≤ upper. |
| Chunking.ChunkBoundsAscending | masserstein/deconv_simplex.py:536-542 | For sorted, well-formed envelopes and MTD ≥ 0, the chunk intervals are ascending and pairwise disjoint. |
| Chunking.AllFilteredLastGetsChunkZero | masserstein/deconv_simplex.py:529-542 | When every candidate is filtered, the last sentinel envelope is not skipped. It forms chunk 0 with bounds (−1−MTD, −1+MTD). |
| Chunking.SentinelsGetNoChunk | masserstein/deconv_simplex.py:515-532 | When some candidate survives and all masses are non-negative, every filtered candidate gets chunk id −1. |
| Chunking.LastEnvelopeSetsUpperBound | masserstein/deconv_simplex.py:536-542 | A concrete input where a long envelope is followed by a short one closes the chunk at the short one's upper bound. The chunk interval then does not cover the long envelope. |
| Splitting.ChunkTotals | masserstein/deconv_simplex.py:566 | One total per chunk list, each equal to the summed intensity of the listed experimental peaks. |
| Splitting.SplitConserves | masserstein/deconv_simplex.py:550-566 | For ascending lists of peak indices below n, the chunk totals plus the noise vector of the first n peaks equal the total intensity of those peaks: an unlisted peak counts as noise and no peak is counted twice. |
| Splitting.SkipPassedChunks | masserstein/deconv_simplex.py:555-559 | Closes the lists of chunks that end below the current mass, stopping at the last chunk. The split invariant is kept, and the current chunk no longer ends below the mass unless it is the last one. |
| Splitting.SplitStep | masserstein/deconv_simplex.py:554-564 | One peak goes either into the current chunk's list (when inside its interval) or into the noise vector. The split invariant is kept. |
| Splitting.SplitExperimental | masserstein/deconv_simplex.py:550-566 | The result has between 1 and (number of bounds) lists. Read one after another, the lists are strictly increasing, so no peak is listed twice. Every listed peak lies inside its chunk's interval, bounds included. The noise vector holds the intensity of exactly the unlisted peaks and 0 elsewhere. Chunk totals plus noise equal the total intensity. For sorted peaks and ascending disjoint chunks, a peak is listed if and only if it lies in some chunk. |
| Orchestrator.Attempt | masserstein/deconv_simplex.py:591-601 | From a given attempt number, returns the first optimal attempt up to max_reruns, or exhaustion after that many calls. |
| Orchestrator.SolveWithRetries | masserstein/deconv_simplex.py:591-601 | Succeeds if and only if some attempt in 1..max_reruns is optimal. It then returns the first optimal attempt's decision, and all earlier attempts were not optimal. Otherwise it gives up after max(max_reruns, 0) calls. |
| Orchestrator.Scatter | masserstein/deconv_simplex.py:607-612 | Fails (an index error) exactly when there are more values than target indices. Otherwise the array keeps its length. |
| Orchestrator.ScatterValues | masserstein/deconv_simplex.py:607-612 | After scattering, every written index holds the value of its last write. Every other position is unchanged. |
| Orchestrator.CandidatesOf | masserstein/deconv_simplex.py:588 | Lists exactly the candidates whose chunk id is the given chunk, in increasing order. |
| Orchestrator.ProcessChunk | masserstein/deconv_simplex.py:575-612 | Fails exactly when the chunk is not nearly empty and either the retries are exhausted or the solver returns too many values. The error reports the chunk's bounds or the index error. |
| Orchestrator.ProcessChunkEffect | masserstein/deconv_simplex.py:575-612 | A nearly empty chunk (total below 1e-16) puts its peaks' intensities back into the noise. Its proportions are then left unchanged. Otherwise each chunk candidate gets its proportion times the chunk total, and each listed peak gets its noise value times the chunk total. Candidates and peaks beyond the solver's value lists keep their values, and entries of other chunks are not touched. |
| Orchestrator.FirstFailure | masserstein/deconv_simplex.py:572-601 | The chunk at which the loop's exception is raised. None is found if and only if no chunk from the start on fails. A chunk that is found fails, and no earlier chunk does. |
| Orchestrator.ProcessChunkAddsTotal | masserstein/deconv_simplex.py:575-612 | With a solver whose optimal solutions sum to 1, a successful turn on a chunk whose slots hold 0 adds exactly the chunk's ion current to proportions plus noise. This holds both below the floor and for a solved chunk. |
| Orchestrator.ScatterOntoZeros | masserstein/deconv_simplex.py:607-612 | Writing values once each onto slots that hold 0 raises the array's sum by exactly the values' sum. |
| Orchestrator.PipelineConserves | masserstein/deconv_simplex.py:614-619 | With a solver whose optimal solutions sum to 1, the estimate keeps the whole experimental ion current, within the normalization tolerance of 1. |
| Orchestrator.DeconvolveChunks | masserstein/deconv_simplex.py:572-612 | Succeeds if and only if no chunk fails, that is, when Orchestrator.FirstFailure finds none. On failure it reports the first failing chunk's error, which is either exhausted retries or an index error. On success every chunk's effect holds. Candidates outside all chunk lists keep proportion 0, and unlisted peaks keep their noise. Candidates of a nearly empty chunk keep proportion 0. Candidates and peaks beyond the solver's value lists keep their starting values. With a solver whose optimal solutions sum to 1, chunk totals equal to the listed intensities, and starting noise 0 on listed peaks, the final proportions plus noise equal the starting noise plus all chunk totals. |
| Orchestrator.CheckExperimental | masserstein/deconv_simplex.py:482-488 | Reports, in the source's order, a non-normalized spectrum, a negative mass or a negative intensity. Each report is given exactly when the earlier tests pass and its own test fails. It reports no problem if and only if none of them occurs. |
| Orchestrator.CheckQuery | masserstein/deconv_simplex.py:494-496 | Reports the first theoretical spectrum that is not normalized or has a negative mass, with its index. It reports no problem if and only if all spectra are valid. |
| Orchestrator.EstimateProportions | masserstein/deconv_simplex.py:482-612 | Validation errors come in the source's order, and an empty query is an error. On valid non-empty input, a failure is either exhausted retries, and then some chunk's retries found no optimal attempt, or an index error, and then some optimal attempt returned values for a chunk with no slots for them. On success there is one proportion per candidate and one noise value per peak. Every filtered candidate has proportion 0 when some candidate survives. With a solver whose optimal solutions sum to 1, the proportions plus the noise equal the experimental total intensity, so they lie within the normalization tolerance of 1. |
| Orchestrator.FilteredGetNoChunk | masserstein/deconv_simplex.py:509-532 | For valid spectra and some surviving candidate, every filtered candidate's chunk id is −1, so no chunk assigns it a proportion. |

## Left out

- The linear programs of `dualdeconv2`/`dualdeconv3` and their solving are left out: PuLP calls are foreign code, and the solver is the oracle `solve(chunk, attempt)`.
- The per-chunk spectrum (`set_confs`, `normalize`) is left out. The oracle receives the chunk index instead of the normalized chunk spectrum.
- `round(..., 12)` on the duals is left out: the dual values are inputs and stand for the rounded values.
- Floating point is left out: all masses, intensities and sums are exact reals. The normalization test `|sum − 1| < 1e-8` is therefore checked on the exact sum.
- Warnings, `print`, `tqdm` progress bars and timing are left out. None of them changes a result. The fact behind the final `np.isclose` warning (proportions plus noise sum to 1) is proved exactly, under the assumption `Conserving` that every optimal solution the solver returns sums to 1. `dualdeconv3` meets that assumption by construction, since its last noise share completes the sum to 1 (Extraction.CompleteExperimentalNoise). For `dualdeconv2` it is the linear program's own constraint, which is not part of this model.
- `Spectrum.get_modal_peak`, `misc.extract_range` and `misc.closest` are left out. Each candidate carries their results as given fields: the modal mass, the ion current within MTD of its range, and the closest experimental mass.
- `estimate_proportions2`, the other deconvolution variants and the script entry point are left out.
- Extraction.ExperimentalNoise: the duals are a given vector with one entry per axis point, in axis order, as `lpVars` is built (deconv_simplex.py:73-75); reading them back from PuLP is not modelled.
- Orchestrator.EstimateProportions: its own contract states lengths, error order, the failure kinds with a witness for each, zeros for filtered candidates and conservation of ion current. The per-chunk values are stated by Orchestrator.DeconvolveChunks and Orchestrator.ProcessChunkEffect, which it calls.
- Orchestrator.ProcessChunk: the solver's noise values are scattered by position onto the chunk's peak list, as the code does. `dualdeconv2` omits axis points with zero experimental intensity, so a chunk holding a zero-intensity peak would shift those positions. This alignment is not checked, because it depends on how `Spectrum.set_confs` treats zero intensities, which is not part of this model.

=== FILE: chunking.dfy ===
/** The chunk sweep of `estimate_proportions`: envelope entries, sorted by lower bound, are
    grouped into chunks whose mass intervals can be deconvolved independently. */
module Chunking {
  import opened Prefiltering
  import opened Wrappers

  /** A chunk's mass interval `(lower, upper)`. */
  datatype Bound = Bound(lo: real, hi: real)

  /** `chunkIDs` (one per candidate, in query order) and `chunk_bounds` (one per chunk). */
  datatype Chunks = Chunks(chunkIds: seq<int>, bounds: seq<Bound>)

  /** Entry ids index the candidate list: each is below the number of entries and none repeats. */
  predicate IdsIndexQuery(env: seq<Envelope>)
  {
    (forall p :: 0 <= p < |env| ==> env[p].id < |env|) && DistinctIds(env)
  }

  function FirstPresentFrom(env: seq<Envelope>, p: nat): (fp: nat)
    requires p < |env|
    ensures p <= fp < |env|
    ensures forall q :: p <= q < fp ==> env[q].lo == Sentinel
    ensures fp < |env| - 1 ==> env[fp].lo != Sentinel
    decreases |env| - p
  {
    if env[p].lo == Sentinel && p < |env| - 1 then FirstPresentFrom(env, p + 1) else p
  }

  /** `first_present`: the first entry that is not a sentinel, except that the skip stops at
      the last entry even when that one is a sentinel too. */
  function FirstPresent(env: seq<Envelope>): (fp: nat)
    requires |env| > 0
    ensures fp < |env|
    ensures forall q :: 0 <= q < fp ==> env[q].lo == Sentinel
    ensures fp < |env| - 1 ==> env[fp].lo != Sentinel
  {
    FirstPresentFrom(env, 0)
  }

  /** The value of `prev_mx` when entry `p` is examined: the upper bound of the entry just
      before it (not the largest upper bound so far), and on the first step the first present
      entry's own upper bound. */
  function PrevUpper(env: seq<Envelope>, fp: nat, p: nat): real
    requires fp <= p < |env|
  {
    if p == fp then env[fp].hi else env[p - 1].hi
  }

  /** Entry `p` opens a new chunk: its lower bound lies more than 2·MTD above `prev_mx`. */
  predicate Opens(env: seq<Envelope>, MTD: real, fp: nat, p: nat)
    requires fp <= p < |env|
  {
    env[p].lo - PrevUpper(env, fp, p) > 2.0 * MTD
  }

  /** The chunk id of each entry, read in sorted (position) order. */
  function View(env: seq<Envelope>, ids: seq<int>): (view: seq<int>)
    requires forall p :: 0 <= p < |env| ==> env[p].id < |ids|
    ensures |view| == |env|
    ensures forall p :: 0 <= p < |env| ==> view[p] == ids[env[p].id]
  {
    seq(|env|, p requires 0 <= p < |env| => ids[env[p].id])
  }

  /** The chunk id at position `p` is the one before it, plus one if `p` opens a chunk. */
  ghost predicate Step(env: seq<Envelope>, MTD: real, fp: nat, view: seq<int>, p: nat)
    requires fp < p < |env| == |view|
  {
    view[p] == view[p - 1] + (if Opens(env, MTD, fp, p) then 1 else 0)
  }

  /** What the sweep computes, position by position in sorted order: entries before
      `first_present` get chunk -1; from there on the chunk id starts at 0 (or 1 if the first
      step already opens) and grows by one exactly at the entries that open a chunk; there is one
      bound per chunk id; a chunk's lower bound is its opening entry's lower bound minus MTD,
      and a chunk's upper bound is `prev_mx` + MTD at the moment the next chunk opens, or the last
      entry's upper bound + MTD for the last chunk. */
  ghost predicate IsChunkingView(env: seq<Envelope>, MTD: real, fp: nat, view: seq<int>, bounds: seq<Bound>)
    requires fp < |env| == |view|
  {
    && (forall p :: 0 <= p < fp ==> view[p] == -1)
    && view[fp] == (if Opens(env, MTD, fp, fp) then 1 else 0)
    && (forall p :: fp < p < |env| ==> Step(env, MTD, fp, view, p))
    && |bounds| == view[|env| - 1] + 1
    && |bounds| > 0
    && bounds[0].lo == env[fp].lo - MTD
    && (forall p :: fp <= p < |env| && Opens(env, MTD, fp, p) ==>
          && 1 <= view[p] < |bounds|
          && bounds[view[p]].lo == env[p].lo - MTD
          && bounds[view[p] - 1].hi == PrevUpper(env, fp, p) + MTD)
    && bounds[|bounds| - 1].hi == env[|env| - 1].hi + MTD
  }

  ghost predicate IsChunking(env: seq<Envelope>, MTD: real, fp: nat, ids: seq<int>, bounds: seq<Bound>)
    requires IdsIndexQuery(env)
    requires fp < |env|
  {
    |ids| == |env| && IsChunkingView(env, MTD, fp, View(env, ids), bounds)
  }

  /** The skip loop: entries before `first_present` get chunk id -1, all others keep 0. */
  method SkipFiltered(env: seq<Envelope>) returns (fp: nat, ids: seq<int>)
    requires IdsIndexQuery(env)
    requires |env| > 0
    ensures fp == FirstPresent(env)
    ensures |ids| == |env|
    ensures forall p :: 0 <= p < fp ==> ids[env[p].id] == -1
    ensures forall p :: fp <= p < |env| ==> ids[env[p].id] == 0
  {
    var k := |env|;
    ids := seq(k, _ => 0);
    fp := 0;
    while env[fp].lo == Sentinel && fp < k - 1
      invariant 0 <= fp < k && |ids| == k
      invariant FirstPresentFrom(env, fp) == FirstPresent(env)
      invariant forall p :: 0 <= p < fp ==> ids[env[p].id] == -1
      invariant forall p :: fp <= p < k ==> ids[env[p].id] == 0
    {
      ids := ids[env[fp].id := -1];
      fp := fp + 1;
    }
  }

  /** Facts the grouping loop keeps about an entry `p` that opened a chunk, while chunk
      `current` is still open and started at lower bound `prevMn`. */
  ghost predicate OpenerRecorded(env: seq<Envelope>, MTD: real, fp: nat, view: seq<int>, bounds: seq<Bound>,
                                 current: int, prevMn: real, p: nat)
    requires fp <= p < |env| == |view|
  {
    Opens(env, MTD, fp, p) ==>
      && 1 <= view[p] <= current
      && view[p] - 1 < |bounds|
      && bounds[view[p] - 1].hi == PrevUpper(env, fp, p) + MTD
      && (view[p] < current ==> view[p] < |bounds| && bounds[view[p]].lo == env[p].lo - MTD)
      && (view[p] == current ==> prevMn == env[p].lo)
  }

  /** What the grouping loop knows before examining entry `i`: chunk `current` is open and
      started at `prevMn`, `prevMx` is the upper bound of the entry just examined, the bounds of
      the closed chunks are collected, and the sweep relation holds up to `i`. */
  ghost predicate GroupInv(env: seq<Envelope>, MTD: real, fp: nat, view: seq<int>, bounds: seq<Bound>,
                           current: int, prevMn: real, prevMx: real, i: nat)
    requires fp <= i <= |env| == |view|
  {
    && fp < |env|
    && (forall p :: 0 <= p < fp ==> view[p] == -1)
    && |bounds| == current
    && (i == fp ==> current == 0 && prevMx == env[fp].hi)
    && (i > fp ==> prevMx == env[i - 1].hi && view[i - 1] == current)
    && (i > fp ==> view[fp] == (if Opens(env, MTD, fp, fp) then 1 else 0))
    && (forall p :: fp < p < i ==> Step(env, MTD, fp, view, p))
    && (current > 0 ==> bounds[0].lo == env[fp].lo - MTD)
    && (current == 0 ==> prevMn == env[fp].lo)
    && (forall p :: fp <= p < i ==> OpenerRecorded(env, MTD, fp, view, bounds, current, prevMn, p))
  }

  /** One turn of the grouping loop keeps `GroupInv`: entry `i` either opens a chunk, closing
      the open one at `prev_mx` + MTD, or joins the open chunk. */
  lemma {:induction false} GroupInvStep(env: seq<Envelope>, MTD: real, fp: nat, view: seq<int>, bounds: seq<Bound>,
                                        current: int, prevMn: real, prevMx: real, i: nat,
                                        view': seq<int>, bounds': seq<Bound>, current': int, prevMn': real)
    requires fp <= i < |env| == |view|
    requires GroupInv(env, MTD, fp, view, bounds, current, prevMn, prevMx, i)
    requires current' == current + (if env[i].lo - prevMx > 2.0 * MTD then 1 else 0)
    requires bounds' == if env[i].lo - prevMx > 2.0 * MTD then bounds + [Bound(prevMn - MTD, prevMx + MTD)] else bounds
    requires prevMn' == if env[i].lo - prevMx > 2.0 * MTD then env[i].lo else prevMn
    requires view' == view[i := current']
    ensures GroupInv(env, MTD, fp, view', bounds', current', prevMn', env[i].hi, i + 1)
  {
    assert PrevUpper(env, fp, i) == prevMx;
    forall p | fp < p <= i ensures Step(env, MTD, fp, view', p) {
      if p < i {
        assert Step(env, MTD, fp, view, p);
      }
    }
    forall p | fp <= p <= i ensures OpenerRecorded(env, MTD, fp, view', bounds', current', prevMn', p) {
      if p < i {
        assert OpenerRecorded(env, MTD, fp, view, bounds, current, prevMn, p);
        assert view'[p] == view[p];
      }
    }
  }

  /** When the grouping loop ends, appending the still open chunk's bound completes the sweep
      relation. */
  lemma {:induction false} CloseChunks(env: seq<Envelope>, MTD: real, fp: nat, view: seq<int>, closed: seq<Bound>,
                                       current: int, prevMn: real, prevMx: real)
    requires fp < |env| == |view|
    requires GroupInv(env, MTD, fp, view, closed, current, prevMn, prevMx, |env|)
    ensures IsChunkingView(env, MTD, fp, view, closed + [Bound(prevMn - MTD, prevMx + MTD)])
  {
    var k := |env|;
    var bounds := closed + [Bound(prevMn - MTD, prevMx + MTD)];
    forall p | fp <= p < k && Opens(env, MTD, fp, p)
      ensures 1 <= view[p] < |bounds| && bounds[view[p]].lo == env[p].lo - MTD
      ensures bounds[view[p] - 1].hi == PrevUpper(env, fp, p) + MTD
    {
      assert OpenerRecorded(env, MTD, fp, view, closed, current, prevMn, p);
    }
    assert |bounds| == view[k - 1] + 1;
    assert bounds[0].lo == env[fp].lo - MTD;
    assert bounds[|bounds| - 1].hi == env[k - 1].hi + MTD;
  }

  /** The grouping loop from `first_present` on: it assigns chunk ids and collects one bound
      per chunk. */
  method GroupChunks(env: seq<Envelope>, MTD: real, fp: nat, ids0: seq<int>) returns (ids: seq<int>, bounds: seq<Bound>)
    requires IdsIndexQuery(env)
    requires fp < |env| == |ids0|
    requires forall p :: 0 <= p < fp ==> ids0[env[p].id] == -1
    ensures |ids| == |env|
    ensures IsChunkingView(env, MTD, fp, View(env, ids), bounds)
  {
    var k := |env|;
    ids := ids0;
    ghost var view: seq<int> := View(env, ids0);
    var prevMn := env[fp].lo;
    var prevMx := env[fp].hi;
    var current := 0;
    bounds := [];
    var i := fp;
    while i < k
      invariant fp <= i <= k && |ids| == k && |view| == k
      invariant forall p :: 0 <= p < k ==> ids[env[p].id] == view[p]
      invariant GroupInv(env, MTD, fp, view, bounds, current, prevMn, prevMx, i)
    {
      var e := env[i];
      ghost var view0, bounds0, current0, prevMn0, prevMx0 := view, bounds, current, prevMn, prevMx;
      if e.lo - prevMx > 2.0 * MTD {
        current := current + 1;
        bounds := bounds + [Bound(prevMn - MTD, prevMx + MTD)];
        prevMn := e.lo;
      }
      prevMx := e.hi;
      ids := ids[e.id := current];
      view := view[i := current];
      GroupInvStep(env, MTD, fp, view0, bounds0, current0, prevMn0, prevMx0, i, view, bounds, current, prevMn);
      i := i + 1;
    }
    CloseChunks(env, MTD, fp, view, bounds, current, prevMn, prevMx);
    bounds := bounds + [Bound(prevMn - MTD, prevMx + MTD)];
    assert View(env, ids) == view;
  }

  /** The chunk sweep over sorted envelope entries: the skip loop, then the grouping loop.
      An empty entry list fails at the first access, which is `None` here. */
  method ChunkSweep(env: seq<Envelope>, MTD: real) returns (r: Option<Chunks>)
    requires IdsIndexQuery(env)
    ensures r.None? <==> |env| == 0
    ensures r.Some? ==> IsChunking(env, MTD, FirstPresent(env), r.value.chunkIds, r.value.bounds)
  {
    if |env| == 0 {
      return None;
    }
    var fp, ids0 := SkipFiltered(env);
    var ids, bounds := GroupChunks(env, MTD, fp, ids0);
    return Some(Chunks(ids, bounds));
  }

  /** Every entry's lower bound is at most its upper bound (true of real envelopes, whose
      peak lists are sorted, and of the sentinel entry). */
  predicate WellFormed(env: seq<Envelope>)
  {
    forall p :: 0 <= p < |env| ==> env[p].lo <= env[p].hi
  }

  /** Chunk intervals are nonempty and strictly ascending: each ends before the next begins. */
  predicate AscendingDisjoint(bounds: seq<Bound>)
  {
    && (forall c :: 0 <= c < |bounds| ==> bounds[c].lo <= bounds[c].hi)
    && (forall c, d :: 0 <= c < d < |bounds| ==> bounds[c].hi < bounds[d].lo)
  }

  lemma {:induction false} ViewMonotone(env: seq<Envelope>, MTD: real, fp: nat, view: seq<int>, bounds: seq<Bound>, p: nat, q: nat)
    requires fp < |env| == |view|
    requires IsChunkingView(env, MTD, fp, view, bounds)
    requires fp <= p <= q < |env|
    ensures view[p] <= view[q]
    decreases q - p
  {
    if p < q {
      ViewMonotone(env, MTD, fp, view, bounds, p, q - 1);
      assert Step(env, MTD, fp, view, q);
    }
  }

  /** Every chunk id above the first one is reached at an entry that opens it. */
  lemma {:induction false} OpenerOf(env: seq<Envelope>, MTD: real, fp: nat, view: seq<int>, bounds: seq<Bound>, q: nat, c: int)
    requires fp < |env| == |view|
    requires IsChunkingView(env, MTD, fp, view, bounds)
    requires fp <= q < |env| && view[fp] < c <= view[q]
    ensures exists p :: fp < p <= q && Opens(env, MTD, fp, p) && view[p] == c
    decreases q
  {
    assert q > fp;
    assert Step(env, MTD, fp, view, q);
    if !(Opens(env, MTD, fp, q) && view[q] == c) {
      OpenerOf(env, MTD, fp, view, bounds, q - 1, c);
    }
  }

  /** For well-formed entries and a non-negative MTD the first present entry never opens a
      chunk, so chunk ids run from 0 up to the last bound's index. */
  lemma {:induction false} ChunkIdsFromZero(env: seq<Envelope>, MTD: real, fp: nat, view: seq<int>, bounds: seq<Bound>)
    requires fp < |env| == |view|
    requires IsChunkingView(env, MTD, fp, view, bounds)
    requires WellFormed(env) && MTD >= 0.0
    ensures view[fp] == 0
    ensures forall p :: fp <= p < |env| ==> 0 <= view[p] < |bounds|
  {
    forall p | fp <= p < |env| ensures 0 <= view[p] < |bounds| {
      ViewMonotone(env, MTD, fp, view, bounds, fp, p);
      ViewMonotone(env, MTD, fp, view, bounds, p, |env| - 1);
    }
  }

  lemma {:induction false} AdjacentToPairwise(bounds: seq<Bound>, c: nat, d: nat)
    requires forall e :: 0 <= e < |bounds| ==> bounds[e].lo <= bounds[e].hi
    requires forall e :: 0 <= e < |bounds| - 1 ==> bounds[e].hi < bounds[e + 1].lo
    requires c < d < |bounds|
    ensures bounds[c].hi < bounds[d].lo
    decreases d - c
  {
    if c + 1 < d {
      AdjacentToPairwise(bounds, c + 1, d);
      assert bounds[c].hi < bounds[c + 1].lo;
    }
  }

  /** Consecutive chunks are separated: chunk c ends more than 0 below where chunk c+1 starts,
      because the entry opening c+1 lies more than 2·MTD above `prev_mx`. */
  lemma {:induction false} ChunkGap(env: seq<Envelope>, MTD: real, fp: nat, view: seq<int>, bounds: seq<Bound>, c: nat)
    requires fp < |env| == |view|
    requires IsChunkingView(env, MTD, fp, view, bounds)
    requires view[fp] == 0
    requires c < |bounds| - 1
    ensures bounds[c].hi < bounds[c + 1].lo
  {
    OpenerOf(env, MTD, fp, view, bounds, |env| - 1, c + 1);
    var p :| fp < p <= |env| - 1 && Opens(env, MTD, fp, p) && view[p] == c + 1;
  }

  lemma {:induction false} ChunkStart(env: seq<Envelope>, MTD: real, fp: nat, view: seq<int>, bounds: seq<Bound>, c: nat)
    returns (s: nat)
    requires fp < |env| == |view|
    requires IsChunkingView(env, MTD, fp, view, bounds)
    requires view[fp] == 0
    requires c < |bounds|
    ensures fp <= s < |env| && view[s] == c && bounds[c].lo == env[s].lo - MTD
    ensures c == 0 ==> s == fp
    ensures c > 0 ==> fp < s && view[s - 1] == c - 1
  {
    s := fp;
    if c > 0 {
      OpenerOf(env, MTD, fp, view, bounds, |env| - 1, c);
      var p :| fp < p <= |env| - 1 && Opens(env, MTD, fp, p) && view[p] == c;
      assert Step(env, MTD, fp, view, p);
      s := p;
    }
  }

  lemma {:induction false} ChunkEnd(env: seq<Envelope>, MTD: real, fp: nat, view: seq<int>, bounds: seq<Bound>, c: nat)
    returns (e: nat)
    requires fp < |env| == |view|
    requires IsChunkingView(env, MTD, fp, view, bounds)
    requires view[fp] == 0
    requires c < |bounds|
    ensures fp <= e < |env| && view[e] == c && bounds[c].hi == env[e].hi + MTD
    ensures e == |env| - 1 || view[e + 1] == c + 1
  {
    e := |env| - 1;
    if c < |bounds| - 1 {
      OpenerOf(env, MTD, fp, view, bounds, |env| - 1, c + 1);
      var p :| fp < p <= |env| - 1 && Opens(env, MTD, fp, p) && view[p] == c + 1;
      assert Step(env, MTD, fp, view, p);
      assert bounds[view[p] - 1].hi == PrevUpper(env, fp, p) + MTD;
      e := p - 1;
    } else {
      assert view[e] == c;
    }
  }

  /** A chunk's opening entry does not come after its closing entry. */
  lemma {:induction false} StartNotAfterEnd(env: seq<Envelope>, MTD: real, fp: nat, view: seq<int>, bounds: seq<Bound>,
                                            c: nat, s: nat, e: nat)
    requires fp < |env| == |view|
    requires IsChunkingView(env, MTD, fp, view, bounds)
    requires fp <= s < |env| && fp <= e < |env| && view[s] == c
    requires e == |env| - 1 || view[e + 1] == c + 1
    ensures s <= e
  {
    if e < s {
      ViewMonotone(env, MTD, fp, view, bounds, e + 1, s);
    }
  }

  /** An interval from an entry's lower bound to a later entry's upper bound, widened by a
      non-negative MTD, is not empty. */
  lemma {:induction false} SpanNonEmpty(env: seq<Envelope>, MTD: real, s: nat, e: nat, b: Bound)
    requires SortedByLower(env) && WellFormed(env) && MTD >= 0.0
    requires s <= e < |env| && b.lo == env[s].lo - MTD && b.hi == env[e].hi + MTD
    ensures b.lo <= b.hi
  {
    assert env[s].lo <= env[e].lo <= env[e].hi;
  }

  lemma {:induction false} ChunkNonEmpty(env: seq<Envelope>, MTD: real, fp: nat, view: seq<int>, bounds: seq<Bound>, c: nat)
    requires fp < |env| == |view|
    requires IsChunkingView(env, MTD, fp, view, bounds)
    requires SortedByLower(env) && WellFormed(env) && MTD >= 0.0
    requires c < |bounds|
    ensures bounds[c].lo <= bounds[c].hi
  {
    ChunkIdsFromZero(env, MTD, fp, view, bounds);
    var s := ChunkStart(env, MTD, fp, view, bounds, c);
    var e := ChunkEnd(env, MTD, fp, view, bounds, c);
    StartNotAfterEnd(env, MTD, fp, view, bounds, c, s, e);
    SpanNonEmpty(env, MTD, s, e, bounds[c]);
  }

  /** Over entries sorted by lower bound, with well-formed envelopes and a non-negative MTD,
      the chunk intervals are nonempty, ascending and pairwise disjoint. */
  lemma {:induction false} ChunkBoundsAscending(env: seq<Envelope>, MTD: real, fp: nat, view: seq<int>, bounds: seq<Bound>)
    requires fp < |env| == |view|
    requires IsChunkingView(env, MTD, fp, view, bounds)
    requires SortedByLower(env) && WellFormed(env) && MTD >= 0.0
    ensures AscendingDisjoint(bounds)
  {
    ChunkIdsFromZero(env, MTD, fp, view, bounds);
    forall c | 0 <= c < |bounds| - 1 ensures bounds[c].hi < bounds[c + 1].lo {
      ChunkGap(env, MTD, fp, view, bounds, c);
    }
    forall c | 0 <= c < |bounds| ensures bounds[c].lo <= bounds[c].hi {
      ChunkNonEmpty(env, MTD, fp, view, bounds, c);
    }
    forall c, d | 0 <= c < d < |bounds| ensures bounds[c].hi < bounds[d].lo {
      AdjacentToPairwise(bounds, c, d);
    }
  }

  /** The skip loop stops at the last entry: when every candidate is filtered, the last entry
      in sorted order still lands in chunk 0, whose interval is built around the sentinel. */
  lemma {:induction false} AllFilteredLastGetsChunkZero(env: seq<Envelope>, MTD: real, ids: seq<int>, bounds: seq<Bound>)
    requires IdsIndexQuery(env) && |env| > 0
    requires forall p :: 0 <= p < |env| ==> env[p].lo == Sentinel && env[p].hi == Sentinel
    requires MTD >= 0.0
    requires IsChunking(env, MTD, FirstPresent(env), ids, bounds)
    ensures forall p :: 0 <= p < |env| - 1 ==> ids[env[p].id] == -1
    ensures ids[env[|env| - 1].id] == 0
    ensures bounds == [Bound(Sentinel - MTD, Sentinel + MTD)]
  {
    var view := View(env, ids);
    assert FirstPresent(env) == |env| - 1;
  }

  /** Once at least one candidate is kept and kept envelopes start at non-negative masses, the
      sorted order puts every sentinel before the first kept envelope, so every filtered
      candidate gets chunk -1 and takes part in no chunk. */
  lemma {:induction false} SentinelsGetNoChunk(env: seq<Envelope>, MTD: real, ids: seq<int>, bounds: seq<Bound>)
    requires IdsIndexQuery(env) && |env| > 0 && SortedByLower(env)
    requires forall p :: 0 <= p < |env| ==> env[p].lo == Sentinel || env[p].lo >= 0.0
    requires exists p :: 0 <= p < |env| && env[p].lo != Sentinel
    requires IsChunking(env, MTD, FirstPresent(env), ids, bounds)
    ensures forall p :: 0 <= p < |env| && env[p].lo == Sentinel ==> ids[env[p].id] == -1
  {
    var fp := FirstPresent(env);
    var view := View(env, ids);
    assert env[fp].lo != Sentinel;
    forall p | 0 <= p < |env| && env[p].lo == Sentinel ensures ids[env[p].id] == -1 {
      assert p < fp;
      assert view[p] == -1;
    }
  }

  /** Three envelopes sorted by lower bound: the first reaches up to mass 10, the second only
      to mass 2. */
  function QuirkEnvelopes(): seq<Envelope>
  {
    [Envelope(0.0, 10.0, 0), Envelope(1.0, 2.0, 1), Envelope(7.0, 8.0, 2)]
  }

  /** `prev_mx` follows the last envelope, not the widest: with MTD = 1 the third envelope
      opens a new chunk although the first one overlaps it, chunk 0 ends at 2 + MTD, and the
      first candidate's highest mass 10 lies outside its own chunk's interval. */
  lemma {:induction false} LastEnvelopeSetsUpperBound(ids: seq<int>, bounds: seq<Bound>)
    requires IdsIndexQuery(QuirkEnvelopes())
    requires IsChunking(QuirkEnvelopes(), 1.0, FirstPresent(QuirkEnvelopes()), ids, bounds)
    ensures ids == [0, 0, 1]
    ensures bounds == [Bound(-1.0, 3.0), Bound(6.0, 9.0)]
    ensures bounds[0].hi < QuirkEnvelopes()[0].hi
  {
    var env := QuirkEnvelopes();
    var view := View(env, ids);
    assert FirstPresent(env) == 0;
    assert Step(env, 1.0, 0, view, 1) && Step(env, 1.0, 0, view, 2);
    assert Opens(env, 1.0, 0, 2);
  }
}

=== FILE: extraction.dfy ===
/** Reading the deconvolution result out of the solved dual program. The dual values themselves
    (`.pi` shadow prices and `.dj` reduced costs) come from the solver and are inputs here. */
module Extraction {
  import opened Spectra
  import opened Resampler
  import opened MassAxis

  /** Number of strictly positive entries of a vector. */
  function CountPositive(v: seq<real>): nat
  {
    if |v| == 0 then 0
    else CountPositive(v[..|v| - 1]) + (if v[|v| - 1] > 0.0 then 1 else 0)
  }

  /** Number of peaks with strictly positive intensity. */
  function PositivePeaks(confs: seq<Peak>): nat
  {
    CountPositive(Intensities(confs))
  }

  /** The positions of the strictly positive entries of `v`, in increasing order. */
  function PositiveIndices(v: seq<real>): (idx: seq<nat>)
    ensures |idx| == CountPositive(v)
    ensures StrictlyIncreasingNats(idx)
    ensures forall t :: 0 <= t < |idx| ==> idx[t] < |v| && v[idx[t]] > 0.0
    ensures forall i :: 0 <= i < |v| && v[i] > 0.0 ==> i in idx
  {
    if |v| == 0 then []
    else
      var init := PositiveIndices(v[..|v| - 1]);
      if v[|v| - 1] > 0.0 then init + [|v| - 1] else init
  }

  /** The noise list of `dualdeconv2`: the reduced cost of each axis variable, kept only where
      the resampled experimental intensity is positive, in axis order. */
  function ExperimentalNoise(dj: seq<real>, expVec: seq<real>): (abyss: seq<real>)
    requires |dj| == |expVec|
    ensures |abyss| == CountPositive(expVec)
  {
    if |dj| == 0 then []
    else
      var n := |dj|;
      var init := ExperimentalNoise(dj[..n - 1], expVec[..n - 1]);
      if expVec[n - 1] > 0.0 then init + [dj[n - 1]] else init
  }

  /** The t-th noise value is the reduced cost at the t-th axis position with positive
      experimental intensity. */
  lemma {:induction false} ExperimentalNoiseValues(dj: seq<real>, expVec: seq<real>)
    requires |dj| == |expVec|
    ensures |ExperimentalNoise(dj, expVec)| == |PositiveIndices(expVec)|
    ensures forall t :: 0 <= t < |PositiveIndices(expVec)| ==>
              ExperimentalNoise(dj, expVec)[t] == dj[PositiveIndices(expVec)[t]]
  {
    if |dj| > 0 {
      var n := |dj|;
      ExperimentalNoiseValues(dj[..n - 1], expVec[..n - 1]);
      var idx0 := PositiveIndices(expVec[..n - 1]);
      assert forall t :: 0 <= t < |idx0| ==> dj[..n - 1][idx0[t]] == dj[idx0[t]];
    }
  }

  lemma {:induction false} CountPositiveAppend(a: seq<real>, b: seq<real>)
    ensures CountPositive(a + b) == CountPositive(a) + CountPositive(b)
    decreases |b|
  {
    if |b| > 0 {
      var b' := b[..|b| - 1];
      assert (a + b)[..|a + b| - 1] == a + b';
      CountPositiveAppend(a, b');
    } else {
      assert a + b == a;
    }
  }

  lemma {:induction false} CountPositiveNone(v: seq<real>)
    requires forall i :: 0 <= i < |v| ==> v[i] == 0.0
    ensures CountPositive(v) == 0
  {
    if |v| > 0 {
      CountPositiveNone(v[..|v| - 1]);
    }
  }

  lemma {:induction false} IntensityAtSnoc(confs: seq<Peak>, p: Peak, m: real)
    requires m != p.mass
    ensures IntensityAt(confs + [p], m) == IntensityAt(confs, m)
    decreases |confs|
  {
    if |confs| == 0 {
      assert confs + [p] == [p];
    } else {
      assert (confs + [p])[1..] == confs[1..] + [p];
      IntensityAtSnoc(confs[1..], p, m);
    }
  }

  lemma {:induction false} DensePrefix(init: seq<Peak>, e: Peak, axis: seq<real>, j: nat)
    requires StrictlyIncreasing(axis)
    requires j < |axis| && axis[j] == e.mass
    ensures Dense(init + [e], axis)[..j] == Dense(init, axis[..j])
  {
    forall i | 0 <= i < j ensures Dense(init + [e], axis)[i] == Dense(init, axis[..j])[i] {
      IntensityAtSnoc(init, e, axis[i]);
    }
  }

  lemma {:induction false} DenseTail(confs: seq<Peak>, axis: seq<real>, j: nat)
    requires SortedPeaks(confs) && StrictlyIncreasing(axis)
    requires |confs| > 0 && j < |axis| && axis[j] == confs[|confs| - 1].mass
    ensures CountPositive(Dense(confs, axis)[j + 1..]) == 0
  {
    var tail := Dense(confs, axis)[j + 1..];
    forall i | 0 <= i < |tail| ensures tail[i] == 0.0 {
      assert tail[i] == IntensityAt(confs, axis[j + 1 + i]);
      IntensityAtAbsent(confs, axis[j + 1 + i]);
    }
    CountPositiveNone(tail);
  }

  lemma {:induction false} MassesBelowPeak(confs: seq<Peak>, axis: seq<real>, j: nat)
    requires SortedPeaks(confs) && StrictlyIncreasing(axis)
    requires |confs| > 0 && j < |axis| && axis[j] == confs[|confs| - 1].mass
    requires forall k :: 0 <= k < |confs| ==> confs[k].mass in axis
    ensures SortedPeaks(confs[..|confs| - 1])
    ensures forall k :: 0 <= k < |confs| - 1 ==> confs[k].mass in axis[..j]
  {
    forall k | 0 <= k < |confs| - 1 ensures confs[k].mass in axis[..j] {
      var i :| 0 <= i < |axis| && axis[i] == confs[k].mass;
      assert confs[k].mass < confs[|confs| - 1].mass;
      assert i < j;
      assert axis[..j][i] == axis[i];
    }
  }

  /** Resampling onto an axis holding every peak mass keeps exactly as many positive values as
      the spectrum has positive peaks. */
  lemma {:induction false} DensePositiveCount(confs: seq<Peak>, axis: seq<real>)
    requires SortedPeaks(confs)
    requires StrictlyIncreasing(axis)
    requires forall k :: 0 <= k < |confs| ==> confs[k].mass in axis
    ensures CountPositive(Dense(confs, axis)) == PositivePeaks(confs)
    decreases |confs|
  {
    if |confs| == 0 {
      CountPositiveNone(Dense(confs, axis));
    } else {
      var n := |confs|;
      var init := confs[..n - 1];
      assert confs[n - 1].mass in axis;
      var j :| 0 <= j < |axis| && axis[j] == confs[n - 1].mass;
      MassesBelowPeak(confs, axis, j);
      assert forall k :: 0 <= k < |init| ==> init[k].mass in axis[..j];
      DensePositiveCount(init, axis[..j]);
      DenseCountStep(confs, axis, j);
      assert Intensities(confs)[..n - 1] == Intensities(init);
    }
  }

  /** Splitting the resampled vector at the last peak's axis position: the part before it is
      the resampling of the other peaks, the part after it is all zero. */
  lemma {:induction false} DenseCountStep(confs: seq<Peak>, axis: seq<real>, j: nat)
    requires SortedPeaks(confs) && StrictlyIncreasing(axis)
    requires |confs| > 0 && j < |axis| && axis[j] == confs[|confs| - 1].mass
    ensures CountPositive(Dense(confs, axis)) ==
              CountPositive(Dense(confs[..|confs| - 1], axis[..j])) + (if confs[|confs| - 1].intensity > 0.0 then 1 else 0)
  {
    var n := |confs|;
    var init := confs[..n - 1];
    assert init + [confs[n - 1]] == confs;
    DensePrefix(init, confs[n - 1], axis, j);
    DenseTail(confs, axis, j);
    IntensityAtPeak(confs, n - 1);
    SplitCount(Dense(confs, axis), j);
  }

  lemma {:induction false} SplitCount(d: seq<real>, j: nat)
    requires j < |d|
    ensures CountPositive(d) == CountPositive(d[..j]) + (if d[j] > 0.0 then 1 else 0) + CountPositive(d[j + 1..])
  {
    assert d == d[..j] + [d[j]] + d[j + 1..];
    CountPositiveAppend(d[..j] + [d[j]], d[j + 1..]);
    CountPositiveAppend(d[..j], [d[j]]);
    assert [d[j]][..0] == [];
  }

  /** `dualdeconv2`'s noise list, read over the common mass axis of the experimental and
      theoretical spectra, has one entry per experimental peak of positive intensity. */
  lemma {:induction false} NoisePerPositivePeak(exp: seq<Peak>, thr: seq<seq<Peak>>, dj: seq<real>)
    requires SortedPeaks(exp)
    requires |dj| == |GlobalMassAxis(exp, thr)|
    ensures |ExperimentalNoise(dj, Dense(exp, GlobalMassAxis(exp, thr)))| == PositivePeaks(exp)
  {
    var axis := GlobalMassAxis(exp, thr);
    forall k | 0 <= k < |exp| ensures exp[k].mass in axis {
    }
    DensePositiveCount(exp, axis);
  }

  /** The experimental noise of `dualdeconv3`: the shadow prices of the constraints
      g_1 .. g_{n-1}, then one slot that absorbs the rest, so that signal and noise sum to one. */
  function CompleteExperimentalNoise(probs: seq<real>, g: seq<real>): (abyss: seq<real>)
    ensures |abyss| == |g| + 1
    ensures abyss[..|g|] == g
    ensures Sum(probs) + Sum(abyss) == 1.0
  {
    var last := 1.0 - Sum(probs) - Sum(g);
    SumSnoc(g, last);
    g + [last]
  }

  /** The theoretical noise of `dualdeconv3`: the shadow prices of g_prime_1 .. g_prime_{n-1},
      then one slot completing them to the shadow price of the `p0_prime` constraint. */
  function CompleteTheoreticalNoise(p0: real, gPrime: seq<real>): (abyssTh: seq<real>)
    ensures |abyssTh| == |gPrime| + 1
    ensures abyssTh[..|gPrime|] == gPrime
    ensures Sum(abyssTh) == p0
  {
    var last := p0 - Sum(gPrime);
    SumSnoc(gPrime, last);
    gPrime + [last]
  }
}

=== FILE: mass_axis.dfy ===
/** The common mass axis of one deconvolution problem (`global_mass_axis`): the sorted set of
    all experimental and theoretical masses, and the gaps between its neighbouring points
    (`interval_lengths`). */
module MassAxis {
  import opened Spectra

  /** Adds `m` to a strictly increasing sequence, keeping it strictly increasing; a mass that
      is already present leaves the sequence as it is, as adding to a set does. */
  function Insert(xs: seq<real>, m: real): (r: seq<real>)
    requires StrictlyIncreasing(xs)
    ensures StrictlyIncreasing(r)
    ensures forall x :: x in r <==> x in xs || x == m
    ensures |r| == if m in xs then |xs| else |xs| + 1
  {
    if |xs| == 0 then [m]
    else if m < xs[0] then [m] + xs
    else if m == xs[0] then xs
    else
      var rest := Insert(xs[1..], m);
      assert forall x :: x in xs <==> x == xs[0] || x in xs[1..];
      assert forall i :: 0 <= i < |rest| ==> xs[0] < rest[i] by {
        forall i | 0 <= i < |rest| ensures xs[0] < rest[i] {
          assert rest[i] in rest;
          if rest[i] != m {
            var j :| 0 <= j < |xs[1..]| && xs[1..][j] == rest[i];
            assert xs[j + 1] == rest[i];
          }
        }
      }
      [xs[0]] + rest
  }

  /** The distinct values of `ms`, sorted in increasing order. */
  function SortedUnion(ms: seq<real>): (axis: seq<real>)
    ensures StrictlyIncreasing(axis)
    ensures forall x :: x in axis <==> x in ms
    ensures |axis| <= |ms|
  {
    if |ms| == 0 then []
    else
      var init := ms[..|ms| - 1];
      assert forall x :: x in ms <==> x in init || x == ms[|ms| - 1] by {
        assert ms == init + [ms[|ms| - 1]];
      }
      Insert(SortedUnion(init), ms[|ms| - 1])
  }

  /** Every mass of every theoretical spectrum, spectrum after spectrum. */
  function TheoreticalMasses(thr: seq<seq<Peak>>): (ms: seq<real>)
    ensures forall x :: x in ms <==> exists j, i :: 0 <= j < |thr| && 0 <= i < |thr[j]| && thr[j][i].mass == x
  {
    if |thr| == 0 then []
    else
      var init := thr[..|thr| - 1];
      var last := thr[|thr| - 1];
      var ms := TheoreticalMasses(init) + Masses(last);
      assert forall x :: x in ms <==> exists j, i :: 0 <= j < |thr| && 0 <= i < |thr[j]| && thr[j][i].mass == x by {
        forall x
          ensures x in ms <==> exists j, i :: 0 <= j < |thr| && 0 <= i < |thr[j]| && thr[j][i].mass == x
        {
          if x in ms {
            if x in Masses(last) {
              var i :| 0 <= i < |last| && Masses(last)[i] == x;
              assert thr[|thr| - 1][i].mass == x;
            } else {
              var j, i :| 0 <= j < |init| && 0 <= i < |init[j]| && init[j][i].mass == x;
              assert thr[j][i].mass == x;
            }
          }
          if exists j, i :: 0 <= j < |thr| && 0 <= i < |thr[j]| && thr[j][i].mass == x {
            var j, i :| 0 <= j < |thr| && 0 <= i < |thr[j]| && thr[j][i].mass == x;
            if j == |thr| - 1 {
              assert Masses(last)[i] == x;
            } else {
              assert init[j][i].mass == x;
            }
          }
        }
      }
      ms
  }

  /** The global mass axis: strictly increasing, and holding exactly the masses of the
      experimental spectrum and of the theoretical spectra. */
  function GlobalMassAxis(exp: seq<Peak>, thr: seq<seq<Peak>>): (axis: seq<real>)
    ensures StrictlyIncreasing(axis)
    ensures forall x :: x in axis <==>
              (exists i :: 0 <= i < |exp| && exp[i].mass == x) ||
              (exists j, i :: 0 <= j < |thr| && 0 <= i < |thr[j]| && thr[j][i].mass == x)
  {
    var ms := Masses(exp) + TheoreticalMasses(thr);
    assert forall x :: x in Masses(exp) <==> exists i :: 0 <= i < |exp| && exp[i].mass == x by {
      forall x | x in Masses(exp) ensures exists i :: 0 <= i < |exp| && exp[i].mass == x {
        var i :| 0 <= i < |exp| && Masses(exp)[i] == x;
      }
    }
    SortedUnion(ms)
  }

  /** A strictly increasing sequence is determined by the values it holds, so the axis is the
      one and only sorted enumeration of the mass set. */
  lemma {:induction false} SortedEnumerationUnique(a: seq<real>, b: seq<real>)
    requires StrictlyIncreasing(a) && StrictlyIncreasing(b)
    requires forall x :: x in a <==> x in b
    ensures a == b
    decreases |a|
  {
    if |a| == 0 {
      // `b` has no member, so its multiset, whose size is `|b|`, is empty
      assert forall x :: x in multiset(b) <==> x in b;
      assert forall x :: x !in multiset(b);
      assert multiset(b) == multiset{};
    } else {
      assert a[0] in a;
      assert |b| > 0;
      assert a[0] in b && b[0] in a;
      assert a[0] == b[0];
      forall x ensures x in a[1..] <==> x in b[1..] {
        if x in a[1..] {
          var i :| 1 <= i < |a| && a[i] == x;
          assert a[0] < x;
          assert x in b;
          var i' :| 0 <= i' < |b| && b[i'] == x;
          assert i' != 0;
        }
        if x in b[1..] {
          var i :| 1 <= i < |b| && b[i] == x;
          assert b[0] < x;
          assert x in a;
          var i' :| 0 <= i' < |a| && a[i'] == x;
          assert i' != 0;
        }
      }
      SortedEnumerationUnique(a[1..], b[1..]);
      assert a == [a[0]] + a[1..];
      assert b == [b[0]] + b[1..];
    }
  }

  /** `interval_lengths`: the gap after each axis point but the last (none for an empty axis,
      as `range(n-1)` is then empty); positive on a strictly increasing axis. */
  function IntervalLengths(axis: seq<real>): (gaps: seq<real>)
    ensures |gaps| == if |axis| == 0 then 0 else |axis| - 1
    ensures forall i :: 0 <= i < |gaps| ==> axis[i] + gaps[i] == axis[i + 1]
    ensures StrictlyIncreasing(axis) ==> forall i :: 0 <= i < |gaps| ==> gaps[i] > 0.0
  {
    if |axis| == 0 then []
    else seq(|axis| - 1, i requires 0 <= i < |axis| - 1 => axis[i + 1] - axis[i])
  }

  /** The gaps are a faithful encoding of the axis: each point is the first point plus the
      gaps before it, so the axis is recovered from its first point and its gaps. */
  lemma {:induction false} AxisFromGaps(axis: seq<real>, i: nat)
    requires i < |axis|
    ensures axis[i] == axis[0] + Sum(IntervalLengths(axis)[..i])
  {
    var gaps := IntervalLengths(axis);
    if i == 0 {
      assert gaps[..0] == [];
    } else {
      AxisFromGaps(axis, i - 1);
      assert gaps[..i] == gaps[..i - 1] + [gaps[i - 1]];
      SumSnoc(gaps[..i - 1], gaps[i - 1]);
    }
  }

  /** The gaps add up to the axis span. */
  lemma {:induction false} IntervalLengthsSpan(axis: seq<real>)
    requires |axis| > 0
    ensures Sum(IntervalLengths(axis)) == axis[|axis| - 1] - axis[0]
  {
    AxisFromGaps(axis, |axis| - 1);
    assert IntervalLengths(axis)[..|axis| - 1] == IntervalLengths(axis);
  }
}

=== FILE: orchestrator.dfy ===
/** The per-chunk deconvolution loop of `estimate_proportions` and the pipeline around it.
    The linear-programming solver is an oracle `solve(chunk, attempt)`: the same chunk may be
    solved again, and the attempt number lets a rerun come out differently. */
module Orchestrator {
  import opened Wrappers
  import opened Spectra
  import opened Prefiltering
  import opened Chunking
  import opened Splitting

  /** What one solver run on a chunk hands back: the status code, one proportion per
      candidate of the chunk and one noise share per experimental peak of the chunk. */
  datatype Decision = Decision(status: int, probs: seq<real>, trash: seq<real>)

  /** The solver's status code for an optimal solution. */
  const Optimal: int := 1

  /** A chunk whose ion current is below this floor is not deconvolved. */
  const EmptyChunkFloor: real := 0.0000000000000001

  /** How far the total intensity of a spectrum may stray from 1. */
  const NormTolerance: real := 0.00000001

  /** The result of the rerun loop and how many solver runs it took. */
  datatype Outcome = Solved(dec: Decision, calls: nat) | Exhausted(calls: nat)

  datatype Estimate = Estimate(proportions: seq<real>, noise: seq<real>)

  datatype Failure =
    | RerunsExhausted(lo: real, hi: real)  // no optimal solution for the chunk with these bounds
    | IndexOutOfRange                       // the solver returned more values than there are slots
    | NoCandidates                          // the query is empty
    | ExperimentNotNormalized
    | NegativeExperimentalMass
    | NegativeIntensity
    | QueryNotNormalized(index: nat)
    | NegativeQueryMass(index: nat)

  /** Run number `rerun` onwards of the rerun loop: a run past `maxReruns` gives up, an
      optimal run is accepted, any other run is repeated. */
  function Attempt(solve: nat -> Decision, maxReruns: int, rerun: nat): (o: Outcome)
    requires rerun >= 1
    ensures o.Solved? ==>
              && rerun <= o.calls <= maxReruns
              && o.dec == solve(o.calls) && o.dec.status == Optimal
              && forall a :: rerun <= a < o.calls ==> solve(a).status != Optimal
    ensures o.Exhausted? ==>
              && o.calls == (if maxReruns < rerun then rerun - 1 else maxReruns)
              && forall a :: rerun <= a <= maxReruns ==> solve(a).status != Optimal
    decreases if rerun <= maxReruns then maxReruns - rerun + 1 else 0
  {
    if rerun > maxReruns then Exhausted(rerun - 1)
    else if solve(rerun).status == Optimal then Solved(solve(rerun), rerun)
    else Attempt(solve, maxReruns, rerun + 1)
  }

  /** The rerun loop: the first optimal run among runs 1 to `maxReruns`, or exhaustion after
      exactly `maxReruns` runs (none when `maxReruns` is not positive). */
  function SolveWithRetries(solve: nat -> Decision, maxReruns: int): (o: Outcome)
    ensures o.Solved? <==> exists a :: 1 <= a <= maxReruns && solve(a).status == Optimal
    ensures o.Solved? ==>
              && 1 <= o.calls <= maxReruns
              && o.dec == solve(o.calls) && o.dec.status == Optimal
              && forall a :: 1 <= a < o.calls ==> solve(a).status != Optimal
    ensures o.Exhausted? ==> o.calls == (if maxReruns < 1 then 0 else maxReruns)
  {
    Attempt(solve, maxReruns, 1)
  }

  /** The solver specialised to chunk `c`. */
  function ChunkSolver(solve: (nat, nat) -> Decision, c: nat): nat -> Decision
  {
    (a: nat) => solve(c, a)
  }

  /** Write `t` of `n` is the last one aimed at its slot. */
  predicate LastWrite(ids: seq<nat>, n: nat, t: nat)
    requires n <= |ids|
  {
    forall u :: t < u < n ==> ids[u] != ids[t]
  }

  /** None of the first `n` writes is aimed at slot `j`. */
  predicate NotWritten(ids: seq<nat>, n: nat, j: nat)
    requires n <= |ids|
  {
    forall t :: 0 <= t < n ==> ids[t] != j
  }

  /** Writes `vals[t]` into slot `ids[t]`, for each `t` in order. A value with no slot (more
      values than slots) is an index error. */
  function Scatter(arr: seq<real>, ids: seq<nat>, vals: seq<real>): (r: Option<seq<real>>)
    requires forall t :: 0 <= t < |ids| ==> ids[t] < |arr|
    ensures r.None? <==> |vals| > |ids|
    ensures r.Some? ==> |r.value| == |arr|
    decreases |vals|
  {
    if |vals| > |ids| then None
    else if |vals| == 0 then Some(arr)
    else
      var n := |vals| - 1;
      var prev := Scatter(arr, ids, vals[..n]);
      Some(prev.value[ids[n] := vals[n]])
  }

  /** After the scatter, a slot holds the value of the last write aimed at it, and a slot no
      write aims at keeps its old value. */
  lemma {:induction false} ScatterValues(arr: seq<real>, ids: seq<nat>, vals: seq<real>)
    requires forall t :: 0 <= t < |ids| ==> ids[t] < |arr|
    requires |vals| <= |ids|
    ensures forall t :: 0 <= t < |vals| && LastWrite(ids, |vals|, t) ==> Scatter(arr, ids, vals).value[ids[t]] == vals[t]
    ensures forall j :: 0 <= j < |arr| && NotWritten(ids, |vals|, j) ==> Scatter(arr, ids, vals).value[j] == arr[j]
    decreases |vals|
  {
    if |vals| > 0 {
      var n := |vals| - 1;
      var init := vals[..n];
      ScatterValues(arr, ids, init);
      var prev := Scatter(arr, ids, init).value;
      var r := Scatter(arr, ids, vals).value;
      assert r == prev[ids[n] := vals[n]];
      forall t | 0 <= t < |vals| && LastWrite(ids, |vals|, t) ensures r[ids[t]] == vals[t] {
        if t < n {
          assert LastWrite(ids, n, t);
          assert init[t] == vals[t];
        }
      }
      forall j | 0 <= j < |arr| && NotWritten(ids, |vals|, j) ensures r[j] == arr[j] {
        assert NotWritten(ids, n, j);
      }
    }
  }

  /** Every value multiplied by `s`. */
  function Scale(vals: seq<real>, s: real): (v: seq<real>)
    ensures |v| == |vals|
    ensures forall t :: 0 <= t < |vals| ==> v[t] == vals[t] * s
  {
    seq(|vals|, t requires 0 <= t < |vals| => vals[t] * s)
  }

  /** In a strictly increasing list of slots every write is the last one to its slot. */
  lemma {:induction false} IncreasingWritesLast(ids: seq<nat>, n: nat)
    requires n <= |ids| && StrictlyIncreasingNats(ids)
    ensures forall t :: 0 <= t < n ==> LastWrite(ids, n, t)
  {
  }

  /** Scaling every value scales the sum. */
  lemma {:induction false} SumScale(vals: seq<real>, s: real)
    ensures Sum(Scale(vals, s)) == Sum(vals) * s
    decreases |vals|
  {
    if |vals| > 0 {
      var n := |vals| - 1;
      forall t | 0 <= t < n ensures Scale(vals, s)[..n][t] == Scale(vals[..n], s)[t] {
        assert vals[..n][t] == vals[t];
      }
      assert Scale(vals, s)[..n] == Scale(vals[..n], s);
      SumScale(vals[..n], s);
      assert Sum(vals[..n]) * s + vals[n] * s == (Sum(vals[..n]) + vals[n]) * s;
    }
  }

  /** Scattering onto slots that hold 0, each written at most once, adds exactly the sum of
      the values. */
  lemma {:induction false} ScatterOntoZeros(arr: seq<real>, ids: seq<nat>, vals: seq<real>)
    requires forall t :: 0 <= t < |ids| ==> ids[t] < |arr|
    requires StrictlyIncreasingNats(ids) && |vals| <= |ids|
    requires forall t :: 0 <= t < |vals| ==> arr[ids[t]] == 0.0
    ensures Sum(Scatter(arr, ids, vals).value) == Sum(arr) + Sum(vals)
    decreases |vals|
  {
    if |vals| > 0 {
      var n := |vals| - 1;
      var init := vals[..n];
      ScatterOntoZeros(arr, ids, init);
      ScatterValues(arr, ids, init);
      var prev := Scatter(arr, ids, init).value;
      assert NotWritten(ids, n, ids[n]);
      SumUpdate(prev, ids[n], vals[n]);
    }
  }

  /** `theoretical_spectra_IDs`: the candidates of chunk `c`, in query order. */
  function CandidatesOf(chunkIds: seq<int>, c: int): (ids: seq<nat>)
    ensures StrictlyIncreasingNats(ids)
    ensures forall t :: 0 <= t < |ids| ==> ids[t] < |chunkIds| && chunkIds[ids[t]] == c
    ensures forall i :: 0 <= i < |chunkIds| && chunkIds[i] == c ==> i in ids
  {
    if |chunkIds| == 0 then []
    else
      var n := |chunkIds| - 1;
      CandidatesOf(chunkIds[..n], c) + (if chunkIds[n] == c then [n] else [])
  }

  /** Chunk `c` makes the whole estimate fail: it is deconvolved, and the rerun loop gives up
      or the solver returns more proportions than the chunk has candidates, or more noise
      shares than the chunk has peaks. */
  predicate ChunkFails(chunkIds: seq<int>, lists: seq<seq<nat>>, tics: seq<real>,
                       solve: (nat, nat) -> Decision, maxReruns: int, c: nat)
    requires c < |lists| == |tics|
  {
    && tics[c] >= EmptyChunkFloor
    && var o := SolveWithRetries(ChunkSolver(solve, c), maxReruns);
       (o.Exhausted? || |o.dec.probs| > |CandidatesOf(chunkIds, c)| || |o.dec.trash| > |lists[c]|)
  }

  /** The first chunk from `c` on that fails, if any. */
  function FirstFailure(chunkIds: seq<int>, lists: seq<seq<nat>>, tics: seq<real>,
                        solve: (nat, nat) -> Decision, maxReruns: int, c: nat): (f: Option<nat>)
    requires c <= |lists| == |tics|
    ensures f.None? <==> forall d :: c <= d < |lists| ==> !ChunkFails(chunkIds, lists, tics, solve, maxReruns, d)
    ensures f.Some? ==>
              && c <= f.value < |lists| && ChunkFails(chunkIds, lists, tics, solve, maxReruns, f.value)
              && forall d :: c <= d < f.value ==> !ChunkFails(chunkIds, lists, tics, solve, maxReruns, d)
    decreases |lists| - c
  {
    if c == |lists| then None
    else if ChunkFails(chunkIds, lists, tics, solve, maxReruns, c) then Some(c)
    else FirstFailure(chunkIds, lists, tics, solve, maxReruns, c + 1)
  }

  /** Past a run of chunks that do not fail, the first failure is the same. */
  lemma {:induction false} FirstFailureSkips(chunkIds: seq<int>, lists: seq<seq<nat>>, tics: seq<real>,
                                             solve: (nat, nat) -> Decision, maxReruns: int, c: nat)
    requires c <= |lists| == |tics|
    requires forall d :: 0 <= d < c ==> !ChunkFails(chunkIds, lists, tics, solve, maxReruns, d)
    ensures FirstFailure(chunkIds, lists, tics, solve, maxReruns, 0) == FirstFailure(chunkIds, lists, tics, solve, maxReruns, c)
    decreases c
  {
    if c > 0 {
      FirstFailureSkips(chunkIds, lists, tics, solve, maxReruns, c - 1);
    }
  }

  /** The error chunk `c` fails with. */
  function ChunkError(bounds: seq<Bound>, lists: seq<seq<nat>>, solve: (nat, nat) -> Decision, maxReruns: int, c: nat): Failure
    requires c < |lists| <= |bounds|
  {
    if SolveWithRetries(ChunkSolver(solve, c), maxReruns).Exhausted? then RerunsExhausted(bounds[c].lo, bounds[c].hi)
    else IndexOutOfRange
  }

  /** What chunk `c` leaves behind. Below the floor its peaks get their own intensity back as
      noise. Otherwise the first optimal run is used, scaled by the chunk's ion current: the
      t-th proportion goes to the chunk's t-th candidate, the t-th noise share to its t-th peak. */
  ghost predicate ChunkDone(exp: seq<Peak>, chunkIds: seq<int>, lists: seq<seq<nat>>, tics: seq<real>,
                            solve: (nat, nat) -> Decision, maxReruns: int, c: nat, st: Estimate)
    requires c < |lists| == |tics| && IndicesBelow(lists, |exp|)
    requires |st.noise| == |exp| && |st.proportions| == |chunkIds|
  {
    if tics[c] < EmptyChunkFloor then
      forall t :: 0 <= t < |lists[c]| ==> st.noise[lists[c][t]] == exp[lists[c][t]].intensity
    else
      var o := SolveWithRetries(ChunkSolver(solve, c), maxReruns);
      var ids := CandidatesOf(chunkIds, c);
      && o.Solved?
      && (forall t :: 0 <= t < |o.dec.probs| && t < |ids| ==> st.proportions[ids[t]] == o.dec.probs[t] * tics[c])
      && (forall t :: 0 <= t < |o.dec.trash| && t < |lists[c]| ==>
            st.noise[lists[c][t]] == o.dec.trash[t] * tics[c])
  }

  /** The slots of chunk `c` that its turn does not write keep the value they had before it:
      below the floor no proportion is written; otherwise the candidates beyond the solver's
      proportions and the peaks beyond its noise shares are left alone. */
  ghost predicate Unwritten(chunkIds: seq<int>, lists: seq<seq<nat>>, tics: seq<real>,
                            solve: (nat, nat) -> Decision, maxReruns: int, c: nat, before: Estimate, after: Estimate)
    requires c < |lists| == |tics| && IndicesBelow(lists, |before.noise|)
    requires |after.noise| == |before.noise| && |before.proportions| == |chunkIds| == |after.proportions|
  {
    if tics[c] < EmptyChunkFloor then
      forall i :: 0 <= i < |chunkIds| && chunkIds[i] == c ==> after.proportions[i] == before.proportions[i]
    else
      var o := SolveWithRetries(ChunkSolver(solve, c), maxReruns);
      var ids := CandidatesOf(chunkIds, c);
      o.Solved? ==>
        && (forall t :: |o.dec.probs| <= t < |ids| ==> after.proportions[ids[t]] == before.proportions[ids[t]])
        && (forall t :: |o.dec.trash| <= t < |lists[c]| ==> after.noise[lists[c][t]] == before.noise[lists[c][t]])
  }

  /** One turn of the chunk loop: a chunk below the floor gets its intensities back as noise;
      any other chunk is solved with reruns and its proportions and noise shares are scattered,
      scaled by the chunk's ion current. It fails exactly as `ChunkFails` says. */
  function ProcessChunk(exp: seq<Peak>, chunkIds: seq<int>, bounds: seq<Bound>, lists: seq<seq<nat>>,
                        tics: seq<real>, solve: (nat, nat) -> Decision, maxReruns: int, c: nat,
                        st: Estimate): (r: Result<Estimate, Failure>)
    requires c < |lists| <= |bounds| && |tics| == |lists|
    requires IndicesBelow(lists, |exp|)
    requires |st.noise| == |exp| && |st.proportions| == |chunkIds|
    ensures r.Err? <==> ChunkFails(chunkIds, lists, tics, solve, maxReruns, c)
    ensures r.Err? ==> r.error == ChunkError(bounds, lists, solve, maxReruns, c)
    ensures r.Ok? ==> |r.value.noise| == |exp| && |r.value.proportions| == |chunkIds|
  {
    if tics[c] < EmptyChunkFloor then
      Ok(st.(noise := Scatter(st.noise, lists[c], IntensitiesAt(exp, lists[c])).value))
    else
      var o := SolveWithRetries(ChunkSolver(solve, c), maxReruns);
      if o.Exhausted? then Err(RerunsExhausted(bounds[c].lo, bounds[c].hi))
      else
        var proportions := Scatter(st.proportions, CandidatesOf(chunkIds, c), Scale(o.dec.probs, tics[c]));
        var noise := Scatter(st.noise, lists[c], Scale(o.dec.trash, tics[c]));
        if proportions.None? || noise.None? then Err(IndexOutOfRange)
        else Ok(Estimate(proportions.value, noise.value))
  }

  /** A successful turn leaves chunk `c` done and touches neither the proportions of other
      chunks' candidates nor the noise of peaks outside the chunk. */
  lemma {:induction false} ProcessChunkEffect(exp: seq<Peak>, chunkIds: seq<int>, bounds: seq<Bound>, lists: seq<seq<nat>>,
                           tics: seq<real>, solve: (nat, nat) -> Decision, maxReruns: int, c: nat, st: Estimate)
    requires c < |lists| <= |bounds| && |tics| == |lists|
    requires IndicesBelow(lists, |exp|) && ListsIncreasing(lists)
    requires |st.noise| == |exp| && |st.proportions| == |chunkIds|
    ensures var r := ProcessChunk(exp, chunkIds, bounds, lists, tics, solve, maxReruns, c, st);
            r.Ok? ==>
              && ChunkDone(exp, chunkIds, lists, tics, solve, maxReruns, c, r.value)
              && Unwritten(chunkIds, lists, tics, solve, maxReruns, c, st, r.value)
              && (forall i :: 0 <= i < |chunkIds| && chunkIds[i] != c ==> r.value.proportions[i] == st.proportions[i])
              && (forall j :: 0 <= j < |exp| && j !in lists[c] ==> r.value.noise[j] == st.noise[j])
  {
    var r := ProcessChunk(exp, chunkIds, bounds, lists, tics, solve, maxReruns, c, st);
    assert StrictlyIncreasingNats(lists[c]);
    if r.Ok? {
      if tics[c] < EmptyChunkFloor {
        ScatterIncreasing(st.noise, lists[c], IntensitiesAt(exp, lists[c]));
      } else {
        var o := SolveWithRetries(ChunkSolver(solve, c), maxReruns);
        ScatterIncreasing(st.proportions, CandidatesOf(chunkIds, c), Scale(o.dec.probs, tics[c]));
        ScatterIncreasing(st.noise, lists[c], Scale(o.dec.trash, tics[c]));
      }
    }
  }

  /** Scattering onto strictly increasing slots writes the t-th value into the t-th slot, and
      leaves the slots beyond the values and every slot off the list as they were. */
  lemma {:induction false} ScatterIncreasing(arr: seq<real>, ids: seq<nat>, vals: seq<real>)
    requires forall t :: 0 <= t < |ids| ==> ids[t] < |arr|
    requires StrictlyIncreasingNats(ids) && |vals| <= |ids|
    ensures forall t :: 0 <= t < |vals| ==> Scatter(arr, ids, vals).value[ids[t]] == vals[t]
    ensures forall t :: |vals| <= t < |ids| ==> Scatter(arr, ids, vals).value[ids[t]] == arr[ids[t]]
    ensures forall j :: 0 <= j < |arr| && j !in ids ==> Scatter(arr, ids, vals).value[j] == arr[j]
  {
    IncreasingWritesLast(ids, |vals|);
    ScatterValues(arr, ids, vals);
    forall t | |vals| <= t < |ids| ensures NotWritten(ids, |vals|, ids[t]) {
      assert forall u :: 0 <= u < |vals| ==> ids[u] < ids[t];
    }
  }

  /** Every optimal solution the solver hands back splits the chunk's unit of ion current
      between the proportions and the noise shares, as the dual program's constraints demand. */
  ghost predicate Conserving(solve: (nat, nat) -> Decision)
  {
    forall c: nat, a: nat :: solve(c, a).status == Optimal ==> Sum(solve(c, a).probs) + Sum(solve(c, a).trash) == 1.0
  }

  /** With a conserving solver, a successful turn on chunk `c` whose slots still hold 0 adds
      exactly the chunk's ion current to proportions plus noise, whether the chunk is below the
      floor (its intensities go back to the noise) or solved (its unit split is scaled by it). */
  lemma {:induction false} ProcessChunkAddsTotal(exp: seq<Peak>, chunkIds: seq<int>, bounds: seq<Bound>, lists: seq<seq<nat>>,
                                                 tics: seq<real>, solve: (nat, nat) -> Decision, maxReruns: int, c: nat,
                                                 st: Estimate)
    requires c < |lists| <= |bounds| && |tics| == |lists|
    requires IndicesBelow(lists, |exp|) && ListsIncreasing(lists)
    requires |st.noise| == |exp| && |st.proportions| == |chunkIds|
    requires Conserving(solve) && tics[c] == SumAt(exp, lists[c])
    requires forall i :: 0 <= i < |chunkIds| && chunkIds[i] == c ==> st.proportions[i] == 0.0
    requires forall t :: 0 <= t < |lists[c]| ==> st.noise[lists[c][t]] == 0.0
    ensures var r := ProcessChunk(exp, chunkIds, bounds, lists, tics, solve, maxReruns, c, st);
            r.Ok? ==> Sum(r.value.proportions) + Sum(r.value.noise) == Sum(st.proportions) + Sum(st.noise) + tics[c]
  {
    var r := ProcessChunk(exp, chunkIds, bounds, lists, tics, solve, maxReruns, c, st);
    assert StrictlyIncreasingNats(lists[c]);
    if r.Ok? {
      if tics[c] < EmptyChunkFloor {
        ScatterOntoZeros(st.noise, lists[c], IntensitiesAt(exp, lists[c]));
      } else {
        var o := SolveWithRetries(ChunkSolver(solve, c), maxReruns);
        assert o.dec == solve(c, o.calls);
        SolvedAddsTotal(st, CandidatesOf(chunkIds, c), lists[c], o.dec, tics[c]);
      }
    }
  }

  /** Scattering a solution whose proportions and noise shares sum to 1, scaled by `tic`, onto
      slots that hold 0 adds exactly `tic` to proportions plus noise. */
  lemma {:induction false} SolvedAddsTotal(st: Estimate, ids: seq<nat>, peaks: seq<nat>, dec: Decision, tic: real)
    requires forall t :: 0 <= t < |ids| ==> ids[t] < |st.proportions|
    requires forall t :: 0 <= t < |peaks| ==> peaks[t] < |st.noise|
    requires StrictlyIncreasingNats(ids) && StrictlyIncreasingNats(peaks)
    requires |dec.probs| <= |ids| && |dec.trash| <= |peaks|
    requires forall t :: 0 <= t < |ids| ==> st.proportions[ids[t]] == 0.0
    requires forall t :: 0 <= t < |peaks| ==> st.noise[peaks[t]] == 0.0
    requires Sum(dec.probs) + Sum(dec.trash) == 1.0
    ensures Sum(Scatter(st.proportions, ids, Scale(dec.probs, tic)).value) +
            Sum(Scatter(st.noise, peaks, Scale(dec.trash, tic)).value) == Sum(st.proportions) + Sum(st.noise) + tic
  {
    ScaledOntoZeros(st.proportions, ids, dec.probs, tic);
    ScaledOntoZeros(st.noise, peaks, dec.trash, tic);
    UnitSplitScaled(Sum(dec.probs), Sum(dec.trash), tic);
  }

  /** Scattering values scaled by `tic` onto slots that hold 0 adds their sum times `tic`. */
  lemma {:induction false} ScaledOntoZeros(arr: seq<real>, ids: seq<nat>, vals: seq<real>, tic: real)
    requires forall t :: 0 <= t < |ids| ==> ids[t] < |arr|
    requires StrictlyIncreasingNats(ids) && |vals| <= |ids|
    requires forall t :: 0 <= t < |ids| ==> arr[ids[t]] == 0.0
    ensures Sum(Scatter(arr, ids, Scale(vals, tic)).value) == Sum(arr) + Sum(vals) * tic
  {
    ScatterOntoZeros(arr, ids, Scale(vals, tic));
    SumScale(vals, tic);
  }

  /** Two shares of a unit, each scaled by `tic`, add up to `tic`. */
  lemma {:induction false} UnitSplitScaled(p: real, q: real, tic: real)
    requires p + q == 1.0
    ensures p * tic + q * tic == tic
  {
    assert p * tic + q * tic == (p + q) * tic;
  }

  /** Two different chunk lists share no peak. */
  lemma {:induction false} ListsDisjoint(lists: seq<seq<nat>>, c: nat, d: nat, t: nat)
    requires ListsIncreasing(lists)
    requires c < |lists| && d < |lists| && c != d && t < |lists[d]|
    ensures lists[d][t] !in lists[c]
  {
    forall u | 0 <= u < |lists[c]| ensures lists[c][u] != lists[d][t] {
      assert c < d || d < c;
    }
  }

  /** Processing chunk `c` keeps every other chunk done. */
  lemma {:induction false} ProcessKeepsDone(exp: seq<Peak>, chunkIds: seq<int>, lists: seq<seq<nat>>, tics: seq<real>,
                         solve: (nat, nat) -> Decision, maxReruns: int, c: nat, d: nat, st: Estimate, st': Estimate)
    requires c < |lists| == |tics| && d < |lists| && c != d
    requires IndicesBelow(lists, |exp|) && ListsIncreasing(lists)
    requires |st.noise| == |exp| == |st'.noise| && |st.proportions| == |chunkIds| == |st'.proportions|
    requires forall i :: 0 <= i < |chunkIds| && chunkIds[i] != c ==> st'.proportions[i] == st.proportions[i]
    requires forall j :: 0 <= j < |exp| && j !in lists[c] ==> st'.noise[j] == st.noise[j]
    requires ChunkDone(exp, chunkIds, lists, tics, solve, maxReruns, d, st)
    ensures ChunkDone(exp, chunkIds, lists, tics, solve, maxReruns, d, st')
  {
    forall t | 0 <= t < |lists[d]| ensures st'.noise[lists[d][t]] == st.noise[lists[d][t]] {
      ListsDisjoint(lists, c, d, t);
    }
  }

  /** Processing chunk `c` leaves the unwritten slots of every other chunk as they were. */
  lemma {:induction false} ProcessKeepsUnwritten(chunkIds: seq<int>, lists: seq<seq<nat>>, tics: seq<real>,
                              solve: (nat, nat) -> Decision, maxReruns: int, c: nat, d: nat,
                              init: Estimate, st: Estimate, st': Estimate)
    requires c < |lists| == |tics| && d < |lists| && c != d
    requires IndicesBelow(lists, |init.noise|) && ListsIncreasing(lists)
    requires |st.noise| == |init.noise| == |st'.noise|
    requires |st.proportions| == |chunkIds| == |st'.proportions| == |init.proportions|
    requires forall i :: 0 <= i < |chunkIds| && chunkIds[i] != c ==> st'.proportions[i] == st.proportions[i]
    requires forall j :: 0 <= j < |init.noise| && j !in lists[c] ==> st'.noise[j] == st.noise[j]
    requires Unwritten(chunkIds, lists, tics, solve, maxReruns, d, init, st)
    ensures Unwritten(chunkIds, lists, tics, solve, maxReruns, d, init, st')
  {
    forall t | 0 <= t < |lists[d]| ensures st'.noise[lists[d][t]] == st.noise[lists[d][t]] {
      ListsDisjoint(lists, c, d, t);
    }
  }

  /** If chunk `c`'s slots still hold their starting values when its turn comes, what the turn
      leaves unwritten still holds the starting values afterwards. */
  lemma {:induction false} UnwrittenSinceStart(chunkIds: seq<int>, lists: seq<seq<nat>>, tics: seq<real>,
                            solve: (nat, nat) -> Decision, maxReruns: int, c: nat,
                            init: Estimate, st: Estimate, st': Estimate)
    requires c < |lists| == |tics| && IndicesBelow(lists, |init.noise|)
    requires |st.noise| == |init.noise| == |st'.noise|
    requires |st.proportions| == |chunkIds| == |st'.proportions| == |init.proportions|
    requires forall i :: 0 <= i < |chunkIds| && chunkIds[i] == c ==> st.proportions[i] == init.proportions[i]
    requires forall t :: 0 <= t < |lists[c]| ==> st.noise[lists[c][t]] == init.noise[lists[c][t]]
    requires Unwritten(chunkIds, lists, tics, solve, maxReruns, c, st, st')
    ensures Unwritten(chunkIds, lists, tics, solve, maxReruns, c, init, st')
  {
  }

  /** The state the chunk loop starts from: no proportions yet, and the noise of the split. */
  function Initial(k: nat, noise0: seq<real>): (st: Estimate)
    ensures |st.proportions| == k && st.noise == noise0
    ensures forall i :: 0 <= i < k ==> st.proportions[i] == 0.0
  {
    Estimate(seq(k, _ => 0.0), noise0)
  }

  /** What the chunk loop knows after the first `c` chunks: none of them failed, each is done
      and left its unwritten slots at their starting values, candidates of later chunks (or of
      none) still have proportion 0, and peaks on none of these chunks' lists keep their noise. */
  ghost predicate ChunksSoFar(exp: seq<Peak>, chunkIds: seq<int>, lists: seq<seq<nat>>, tics: seq<real>,
                              noise0: seq<real>, solve: (nat, nat) -> Decision, maxReruns: int, c: nat, st: Estimate)
    requires c <= |lists| == |tics| && IndicesBelow(lists, |exp|) && |noise0| == |exp|
  {
    && |st.noise| == |exp| && |st.proportions| == |chunkIds|
    && (forall d :: 0 <= d < c ==> !ChunkFails(chunkIds, lists, tics, solve, maxReruns, d))
    && (forall d :: 0 <= d < c ==> ChunkDone(exp, chunkIds, lists, tics, solve, maxReruns, d, st))
    && (forall d :: 0 <= d < c ==> Unwritten(chunkIds, lists, tics, solve, maxReruns, d, Initial(|chunkIds|, noise0), st))
    && (forall i :: 0 <= i < |chunkIds| && !(0 <= chunkIds[i] < c) ==> st.proportions[i] == 0.0)
    && (forall j :: 0 <= j < |exp| && (forall d :: 0 <= d < c ==> j !in lists[d]) ==> st.noise[j] == noise0[j])
  }

  /** A successful turn on chunk `c` extends `ChunksSoFar` by one chunk. */
  lemma {:induction false} ChunkStepKeeps(exp: seq<Peak>, chunkIds: seq<int>, bounds: seq<Bound>, lists: seq<seq<nat>>,
                                          tics: seq<real>, noise0: seq<real>, solve: (nat, nat) -> Decision,
                                          maxReruns: int, c: nat, st: Estimate)
    requires c < |lists| <= |bounds| && |tics| == |lists|
    requires IndicesBelow(lists, |exp|) && ListsIncreasing(lists) && |noise0| == |exp|
    requires ChunksSoFar(exp, chunkIds, lists, tics, noise0, solve, maxReruns, c, st)
    requires ProcessChunk(exp, chunkIds, bounds, lists, tics, solve, maxReruns, c, st).Ok?
    ensures ChunksSoFar(exp, chunkIds, lists, tics, noise0, solve, maxReruns, c + 1,
                        ProcessChunk(exp, chunkIds, bounds, lists, tics, solve, maxReruns, c, st).value)
  {
    var init := Initial(|chunkIds|, noise0);
    var st' := ProcessChunk(exp, chunkIds, bounds, lists, tics, solve, maxReruns, c, st).value;
    ProcessChunkEffect(exp, chunkIds, bounds, lists, tics, solve, maxReruns, c, st);
    forall d | 0 <= d < c ensures ChunkDone(exp, chunkIds, lists, tics, solve, maxReruns, d, st') {
      ProcessKeepsDone(exp, chunkIds, lists, tics, solve, maxReruns, c, d, st, st');
    }
    forall d | 0 <= d < c ensures Unwritten(chunkIds, lists, tics, solve, maxReruns, d, init, st') {
      ProcessKeepsUnwritten(chunkIds, lists, tics, solve, maxReruns, c, d, init, st, st');
    }
    forall t | 0 <= t < |lists[c]| ensures st.noise[lists[c][t]] == init.noise[lists[c][t]] {
      forall d | 0 <= d < c ensures lists[c][t] !in lists[d] {
        ListsDisjoint(lists, d, c, t);
      }
    }
    UnwrittenSinceStart(chunkIds, lists, tics, solve, maxReruns, c, init, st, st');
  }

  /** The setting in which the chunk loop conserves ion current: the solver conserves, each
      chunk total is the summed intensity of its peaks, and the noise starts at 0 on every
      listed peak, as the split leaves it. */
  ghost predicate Balanced(exp: seq<Peak>, lists: seq<seq<nat>>, tics: seq<real>, noise0: seq<real>,
                           solve: (nat, nat) -> Decision)
    requires |tics| == |lists| && IndicesBelow(lists, |exp|) && |noise0| == |exp|
  {
    && Conserving(solve)
    && (forall c :: 0 <= c < |lists| ==> tics[c] == SumAt(exp, lists[c]))
    && (forall c, t :: 0 <= c < |lists| && 0 <= t < |lists[c]| ==> noise0[lists[c][t]] == 0.0)
  }

  /** What the chunk loop keeps of the ion current after the first `c` chunks: in a balanced
      setting, proportions plus noise are the starting noise plus those chunks' totals. */
  ghost predicate SumSoFar(exp: seq<Peak>, lists: seq<seq<nat>>, tics: seq<real>, noise0: seq<real>,
                           solve: (nat, nat) -> Decision, c: nat, st: Estimate)
    requires c <= |lists| == |tics| && IndicesBelow(lists, |exp|) && |noise0| == |exp|
  {
    Balanced(exp, lists, tics, noise0, solve) ==> Sum(st.proportions) + Sum(st.noise) == Sum(noise0) + Sum(tics[..c])
  }

  /** The chunk loop starts with proportions plus noise equal to the starting noise. */
  lemma {:induction false} SumSoFarInit(exp: seq<Peak>, chunkIds: seq<int>, lists: seq<seq<nat>>, tics: seq<real>,
                                        noise0: seq<real>, solve: (nat, nat) -> Decision)
    requires |lists| == |tics| && IndicesBelow(lists, |exp|) && |noise0| == |exp|
    ensures SumSoFar(exp, lists, tics, noise0, solve, 0, Initial(|chunkIds|, noise0))
  {
    SumAllZero(Initial(|chunkIds|, noise0).proportions);
  }

  /** In a balanced setting a successful turn on chunk `c` adds chunk `c`'s total to
      proportions plus noise. */
  lemma {:induction false} ChunkStepConserves(exp: seq<Peak>, chunkIds: seq<int>, bounds: seq<Bound>, lists: seq<seq<nat>>,
                                              tics: seq<real>, noise0: seq<real>, solve: (nat, nat) -> Decision,
                                              maxReruns: int, c: nat, st: Estimate)
    requires c < |lists| <= |bounds| && |tics| == |lists|
    requires IndicesBelow(lists, |exp|) && ListsIncreasing(lists) && |noise0| == |exp|
    requires ChunksSoFar(exp, chunkIds, lists, tics, noise0, solve, maxReruns, c, st)
    requires SumSoFar(exp, lists, tics, noise0, solve, c, st)
    requires ProcessChunk(exp, chunkIds, bounds, lists, tics, solve, maxReruns, c, st).Ok?
    ensures SumSoFar(exp, lists, tics, noise0, solve, c + 1,
                     ProcessChunk(exp, chunkIds, bounds, lists, tics, solve, maxReruns, c, st).value)
  {
    if Balanced(exp, lists, tics, noise0, solve) {
      forall t | 0 <= t < |lists[c]| ensures st.noise[lists[c][t]] == 0.0 {
        forall d | 0 <= d < c ensures lists[c][t] !in lists[d] {
          ListsDisjoint(lists, d, c, t);
        }
        assert noise0[lists[c][t]] == 0.0;
      }
      ProcessChunkAddsTotal(exp, chunkIds, bounds, lists, tics, solve, maxReruns, c, st);
      assert tics[..c + 1][..c] == tics[..c];
    }
  }

  /** After the last chunk, `SumSoFar` counts every chunk's total. */
  lemma {:induction false} SumSoFarFinal(exp: seq<Peak>, lists: seq<seq<nat>>, tics: seq<real>, noise0: seq<real>,
                                         solve: (nat, nat) -> Decision, st: Estimate)
    requires |lists| == |tics| && IndicesBelow(lists, |exp|) && |noise0| == |exp|
    requires SumSoFar(exp, lists, tics, noise0, solve, |lists|, st)
    ensures Balanced(exp, lists, tics, noise0, solve) ==> Sum(st.proportions) + Sum(st.noise) == Sum(noise0) + Sum(tics)
  {
    assert tics[..|lists|] == tics;
  }

  /** After the last chunk, `ChunksSoFar` gives what the chunk loop promises. */
  lemma {:induction false} ChunksAllDone(exp: seq<Peak>, chunkIds: seq<int>, lists: seq<seq<nat>>, tics: seq<real>,
                                         noise0: seq<real>, solve: (nat, nat) -> Decision, maxReruns: int, st: Estimate)
    requires |tics| == |lists| && IndicesBelow(lists, |exp|) && |noise0| == |exp|
    requires ChunksSoFar(exp, chunkIds, lists, tics, noise0, solve, maxReruns, |lists|, st)
    ensures forall j :: 0 <= j < |exp| && !Listed(lists, j) ==> st.noise[j] == noise0[j]
    ensures forall i :: 0 <= i < |chunkIds| && 0 <= chunkIds[i] < |lists| && tics[chunkIds[i]] < EmptyChunkFloor ==>
              st.proportions[i] == 0.0
  {
    var init := Initial(|chunkIds|, noise0);
    forall j | 0 <= j < |exp| && !Listed(lists, j) ensures st.noise[j] == noise0[j] {
      ListedIff(lists, j);
      assert forall d :: 0 <= d < |lists| ==> j !in lists[d];
    }
    forall i | 0 <= i < |chunkIds| && 0 <= chunkIds[i] < |lists| && tics[chunkIds[i]] < EmptyChunkFloor
      ensures st.proportions[i] == 0.0
    {
      assert Unwritten(chunkIds, lists, tics, solve, maxReruns, chunkIds[i], init, st);
    }
  }

  /** The chunk loop. It succeeds exactly when no chunk fails, and then fails with the first
      failing chunk's error. On success every chunk is done; candidates with no chunk of their
      own keep proportion 0, and peaks on no chunk list keep the noise the split gave them. */
  method DeconvolveChunks(exp: seq<Peak>, chunkIds: seq<int>, bounds: seq<Bound>, lists: seq<seq<nat>>,
                          tics: seq<real>, noise0: seq<real>, solve: (nat, nat) -> Decision, maxReruns: int)
    returns (r: Result<Estimate, Failure>)
    requires |lists| <= |bounds| && |tics| == |lists|
    requires IndicesBelow(lists, |exp|) && ListsIncreasing(lists) && |noise0| == |exp|
    ensures r.Ok? <==> FirstFailure(chunkIds, lists, tics, solve, maxReruns, 0).None?
    ensures r.Err? ==>
              r.error == ChunkError(bounds, lists, solve, maxReruns, FirstFailure(chunkIds, lists, tics, solve, maxReruns, 0).value)
    ensures r.Err? ==> r.error.RerunsExhausted? || r.error.IndexOutOfRange?
    ensures r.Ok? ==> |r.value.proportions| == |chunkIds| && |r.value.noise| == |exp|
    ensures r.Ok? ==> forall c :: 0 <= c < |lists| ==> ChunkDone(exp, chunkIds, lists, tics, solve, maxReruns, c, r.value)
    ensures r.Ok? ==>
              forall i :: 0 <= i < |chunkIds| && !(0 <= chunkIds[i] < |lists|) ==> r.value.proportions[i] == 0.0
    ensures r.Ok? ==> forall j :: 0 <= j < |exp| && !Listed(lists, j) ==> r.value.noise[j] == noise0[j]
    ensures r.Ok? ==>
              forall c :: 0 <= c < |lists| ==>
                Unwritten(chunkIds, lists, tics, solve, maxReruns, c, Initial(|chunkIds|, noise0), r.value)
    ensures r.Ok? ==>
              forall i :: 0 <= i < |chunkIds| && 0 <= chunkIds[i] < |lists| && tics[chunkIds[i]] < EmptyChunkFloor ==>
                r.value.proportions[i] == 0.0
    ensures r.Ok? && Balanced(exp, lists, tics, noise0, solve) ==>
              Sum(r.value.proportions) + Sum(r.value.noise) == Sum(noise0) + Sum(tics)
  {
    var st := Initial(|chunkIds|, noise0);
    SumSoFarInit(exp, chunkIds, lists, tics, noise0, solve);
    var c := 0;
    while c < |lists|
      invariant c <= |lists|
      invariant ChunksSoFar(exp, chunkIds, lists, tics, noise0, solve, maxReruns, c, st)
      invariant SumSoFar(exp, lists, tics, noise0, solve, c, st)
    {
      var step := ProcessChunk(exp, chunkIds, bounds, lists, tics, solve, maxReruns, c, st);
      if step.Err? {
        FirstFailureSkips(chunkIds, lists, tics, solve, maxReruns, c);
        return Err(step.error);
      }
      ChunkStepKeeps(exp, chunkIds, bounds, lists, tics, noise0, solve, maxReruns, c, st);
      ChunkStepConserves(exp, chunkIds, bounds, lists, tics, noise0, solve, maxReruns, c, st);
      st := step.value;
      c := c + 1;
    }
    ChunksAllDone(exp, chunkIds, lists, tics, noise0, solve, maxReruns, st);
    SumSoFarFinal(exp, lists, tics, noise0, solve, st);
    FirstFailureSkips(chunkIds, lists, tics, solve, maxReruns, |lists|);
    return Ok(st);
  }

  predicate Normalized(confs: seq<Peak>)
  {
    Abs(TotalIntensity(confs) - 1.0) < NormTolerance
  }

  predicate MassesNonNegative(confs: seq<Peak>)
  {
    forall i :: 0 <= i < |confs| ==> confs[i].mass >= 0.0
  }

  predicate IntensitiesNonNegative(confs: seq<Peak>)
  {
    forall i :: 0 <= i < |confs| ==> confs[i].intensity >= 0.0
  }

  predicate QueryValid(q: Candidate)
  {
    Normalized(q.confs) && MassesNonNegative(q.confs)
  }

  /** The checks on the experimental spectrum, in the order they are made. */
  function CheckExperimental(exp: seq<Peak>): (r: Option<Failure>)
    ensures r.None? <==> Normalized(exp) && MassesNonNegative(exp) && IntensitiesNonNegative(exp)
    ensures r == Some(ExperimentNotNormalized) <==> !Normalized(exp)
    ensures r == Some(NegativeExperimentalMass) <==> Normalized(exp) && !MassesNonNegative(exp)
    ensures r == Some(NegativeIntensity) <==> Normalized(exp) && MassesNonNegative(exp) && !IntensitiesNonNegative(exp)
  {
    if !Normalized(exp) then Some(ExperimentNotNormalized)
    else if !MassesNonNegative(exp) then Some(NegativeExperimentalMass)
    else if !IntensitiesNonNegative(exp) then Some(NegativeIntensity)
    else None
  }

  /** The checks on query spectra `from` onwards, spectrum by spectrum: the first problem found
      is reported with the spectrum's index. */
  function CheckQuery(query: seq<Candidate>, from: nat): (r: Option<Failure>)
    requires from <= |query|
    ensures r.None? <==> forall i :: from <= i < |query| ==> QueryValid(query[i])
    ensures r.Some? ==> r.value.QueryNotNormalized? || r.value.NegativeQueryMass?
    ensures r.Some? && (r.value.QueryNotNormalized? || r.value.NegativeQueryMass?) ==>
              && from <= r.value.index < |query|
              && !QueryValid(query[r.value.index])
              && (forall h :: from <= h < r.value.index ==> QueryValid(query[h]))
              && (r.value.QueryNotNormalized? <==> !Normalized(query[r.value.index].confs))
    decreases |query| - from
  {
    if from == |query| then None
    else if !Normalized(query[from].confs) then Some(QueryNotNormalized(from))
    else if !MassesNonNegative(query[from].confs) then Some(NegativeQueryMass(from))
    else CheckQuery(query, from + 1)
  }

  /** A normalized spectrum has at least one peak. */
  lemma {:induction false} NormalizedNonEmpty(confs: seq<Peak>)
    requires Normalized(confs)
    ensures |confs| > 0
  {
  }

  /** Every envelope the prefilter makes is a sentinel or starts at its candidate's lowest
      mass, which is not negative for a valid candidate. */
  lemma {:induction false} EnvelopeLowerBounds(query: seq<Candidate>, MDC: real, MMD: real)
    requires forall i :: 0 <= i < |query| ==> QueryValid(query[i])
    ensures forall i :: 0 <= i < |query| ==> |query[i].confs| > 0
    ensures forall i :: 0 <= i < |query| ==>
              var e := Prefilter(query, MDC, MMD).envelopes[i];
              e.id == i && (e.lo == Sentinel || e.lo >= 0.0)
  {
    forall i | 0 <= i < |query| ensures |query[i].confs| > 0 {
      NormalizedNonEmpty(query[i].confs);
    }
    forall i | 0 <= i < |query|
      ensures var e := Prefilter(query, MDC, MMD).envelopes[i]; e.id == i && (e.lo == Sentinel || e.lo >= 0.0)
    {
      assert query[i].confs[0].mass >= 0.0;
    }
  }

  /** The prefiltered, sorted envelopes index the query, hold every envelope the prefilter
      made, and start at sentinels or at non-negative masses. */
  lemma {:induction false} SortedEnvelopes(query: seq<Candidate>, MDC: real, MMD: real)
    requires forall i :: 0 <= i < |query| ==> QueryValid(query[i])
    ensures forall i :: 0 <= i < |query| ==> |query[i].confs| > 0
    ensures IdsIndexQuery(SortByLower(Prefilter(query, MDC, MMD).envelopes))
    ensures forall i :: 0 <= i < |query| ==>
              Prefilter(query, MDC, MMD).envelopes[i] in SortByLower(Prefilter(query, MDC, MMD).envelopes)
    ensures forall p :: 0 <= p < |query| ==>
              var e := SortByLower(Prefilter(query, MDC, MMD).envelopes)[p];
              e.lo == Sentinel || e.lo >= 0.0
  {
    EnvelopeLowerBounds(query, MDC, MMD);
    SortedEntries(Prefilter(query, MDC, MMD).envelopes);
  }

  /** Sorting entries numbered in order keeps them an index of the candidates, loses none, and
      keeps every lower bound a sentinel or non-negative. */
  lemma {:induction false} SortedEntries(es: seq<Envelope>)
    requires forall i :: 0 <= i < |es| ==> es[i].id == i && (es[i].lo == Sentinel || es[i].lo >= 0.0)
    ensures IdsIndexQuery(SortByLower(es))
    ensures forall i :: 0 <= i < |es| ==> es[i] in SortByLower(es)
    ensures forall p :: 0 <= p < |es| ==> SortByLower(es)[p].lo == Sentinel || SortByLower(es)[p].lo >= 0.0
  {
    assert IdsIncreasing(es);
    SortIsStable(es);
    SortKeepsMembers(es);
    assert forall e :: e in es ==> e.id < |es| && (e.lo == Sentinel || e.lo >= 0.0);
  }

  /** The first problem with the input, in the order the checks run: the experimental
      spectrum, then the query spectra one by one, then an empty query. */
  function InputProblem(exp: seq<Peak>, query: seq<Candidate>): Option<Failure>
  {
    if CheckExperimental(exp).Some? then CheckExperimental(exp)
    else if CheckQuery(query, 0).Some? then CheckQuery(query, 0)
    else if |query| == 0 then Some(NoCandidates)
    else None
  }

  /** `estimate_proportions`: validate the input, prefilter and sort the candidates, group them
      into chunks, split the experimental spectrum over the chunks and deconvolve chunk by
      chunk. The validation errors come first and in the order of the checks; an empty query
      has no first envelope. On success there is one proportion per candidate and one noise
      value per experimental peak, and as soon as one candidate passes the prefilter, every
      candidate the prefilter removes gets proportion 0. */
  method EstimateProportions(exp: seq<Peak>, query: seq<Candidate>, MTD: real, MDC: real, MMD: real,
                             maxReruns: int, solve: (nat, nat) -> Decision)
    returns (r: Result<Estimate, Failure>)
    ensures InputProblem(exp, query).Some? ==> r == Err(InputProblem(exp, query).value)
    ensures InputProblem(exp, query).None? && r.Err? ==> r.error.RerunsExhausted? || r.error.IndexOutOfRange?
    ensures r.Ok? ==> |r.value.proportions| == |query| && |r.value.noise| == |exp|
    ensures r.Ok? && (exists i :: 0 <= i < |query| && Kept(query[i], MDC, MMD)) ==>
              forall i :: 0 <= i < |query| && !Kept(query[i], MDC, MMD) ==> r.value.proportions[i] == 0.0
    ensures r.Ok? && Conserving(solve) ==> Sum(r.value.proportions) + Sum(r.value.noise) == TotalIntensity(exp)
    ensures r.Ok? && Conserving(solve) ==> Abs(Sum(r.value.proportions) + Sum(r.value.noise) - 1.0) < NormTolerance
    ensures r.Err? && r.error.RerunsExhausted? ==> exists c: nat :: SolveWithRetries(ChunkSolver(solve, c), maxReruns).Exhausted?
    ensures r.Err? && r.error.IndexOutOfRange? ==>
              exists c: nat, a: nat :: solve(c, a).status == Optimal && (|solve(c, a).probs| > 0 || |solve(c, a).trash| > 0)
  {
    var expProblem := CheckExperimental(exp);
    if expProblem.Some? {
      return Err(expProblem.value);
    }
    var queryProblem := CheckQuery(query, 0);
    if queryProblem.Some? {
      return Err(queryProblem.value);
    }
    SortedEnvelopes(query, MDC, MMD);
    var filtering := Prefilter(query, MDC, MMD);
    var env := SortByLower(filtering.envelopes);
    var sweep := ChunkSweep(env, MTD);
    if sweep.None? {
      return Err(NoCandidates);
    }
    var chunkIds, bounds := sweep.value.chunkIds, sweep.value.bounds;
    var lists, noise := SplitExperimental(exp, bounds);
    var tics := ChunkTotals(exp, lists);
    r := DeconvolveChunks(exp, chunkIds, bounds, lists, tics, noise, solve, maxReruns);
    if r.Ok? && exists i :: 0 <= i < |query| && Kept(query[i], MDC, MMD) {
      FilteredGetNoChunk(query, MDC, MMD, MTD, chunkIds, bounds);
    }
    if r.Ok? && Conserving(solve) {
      PipelineConserves(exp, lists, noise, solve, r.value);
    }
    if r.Err? {
      FailureWitness(chunkIds, bounds, lists, tics, solve, maxReruns,
                     FirstFailure(chunkIds, lists, tics, solve, maxReruns, 0).value);
    }
  }

  /** Why a failing chunk fails: reruns exhausted means no run up to `maxReruns` was optimal;
      an index error means an optimal run returned values, more than the chunk has slots. */
  lemma {:induction false} FailureWitness(chunkIds: seq<int>, bounds: seq<Bound>, lists: seq<seq<nat>>, tics: seq<real>,
                                          solve: (nat, nat) -> Decision, maxReruns: int, c: nat)
    requires c < |lists| <= |bounds| && |tics| == |lists|
    requires ChunkFails(chunkIds, lists, tics, solve, maxReruns, c)
    ensures ChunkError(bounds, lists, solve, maxReruns, c).RerunsExhausted? ==>
              SolveWithRetries(ChunkSolver(solve, c), maxReruns).Exhausted?
    ensures ChunkError(bounds, lists, solve, maxReruns, c).IndexOutOfRange? ==>
              exists a: nat :: solve(c, a).status == Optimal && (|solve(c, a).probs| > 0 || |solve(c, a).trash| > 0)
  {
    var o := SolveWithRetries(ChunkSolver(solve, c), maxReruns);
    if o.Solved? {
      assert o.dec == solve(c, o.calls);
    }
  }

  /** With a conserving solver, what the chunk loop keeps of the split's ion current is the
      whole experimental total, which a normalized spectrum keeps within the tolerance of 1. */
  lemma {:induction false} PipelineConserves(exp: seq<Peak>, lists: seq<seq<nat>>, vortex: seq<real>,
                                             solve: (nat, nat) -> Decision, st: Estimate)
    requires IndicesBelow(lists, |exp|) && |vortex| == |exp|
    requires forall i :: 0 <= i < |exp| ==> vortex[i] == (if Listed(lists, i) then 0.0 else exp[i].intensity)
    requires Sum(ChunkTotals(exp, lists)) + Sum(vortex) == TotalIntensity(exp)
    requires Normalized(exp) && Conserving(solve)
    requires Balanced(exp, lists, ChunkTotals(exp, lists), vortex, solve) ==>
               Sum(st.proportions) + Sum(st.noise) == Sum(vortex) + Sum(ChunkTotals(exp, lists))
    ensures Sum(st.proportions) + Sum(st.noise) == TotalIntensity(exp)
    ensures Abs(Sum(st.proportions) + Sum(st.noise) - 1.0) < NormTolerance
  {
    SplitIsBalanced(exp, lists, vortex, solve);
  }

  /** The split leaves a balanced setting for the chunk loop once the solver conserves: the
      chunk totals are the listed intensities and the noise of every listed peak is 0. */
  lemma {:induction false} SplitIsBalanced(exp: seq<Peak>, lists: seq<seq<nat>>, vortex: seq<real>,
                                           solve: (nat, nat) -> Decision)
    requires IndicesBelow(lists, |exp|) && |vortex| == |exp|
    requires forall i :: 0 <= i < |exp| ==> vortex[i] == (if Listed(lists, i) then 0.0 else exp[i].intensity)
    requires Conserving(solve)
    ensures Balanced(exp, lists, ChunkTotals(exp, lists), vortex, solve)
  {
    forall c, t | 0 <= c < |lists| && 0 <= t < |lists[c]| ensures vortex[lists[c][t]] == 0.0 {
      ListedIff(lists, lists[c][t]);
    }
  }

  /** With one candidate kept, every removed candidate has chunk -1. */
  lemma {:induction false} FilteredGetNoChunk(query: seq<Candidate>, MDC: real, MMD: real, MTD: real, chunkIds: seq<int>, bounds: seq<Bound>)
    requires forall i :: 0 <= i < |query| ==> QueryValid(query[i])
    requires exists i :: 0 <= i < |query| && Kept(query[i], MDC, MMD)
    requires forall i :: 0 <= i < |query| ==> |query[i].confs| > 0
    requires IdsIndexQuery(SortByLower(Prefilter(query, MDC, MMD).envelopes))
    requires |query| > 0
    requires IsChunking(SortByLower(Prefilter(query, MDC, MMD).envelopes), MTD,
                        FirstPresent(SortByLower(Prefilter(query, MDC, MMD).envelopes)), chunkIds, bounds)
    ensures |chunkIds| == |query|
    ensures forall i :: 0 <= i < |query| && !Kept(query[i], MDC, MMD) ==> chunkIds[i] == -1
  {
    SortedEnvelopes(query, MDC, MMD);
    var es := Prefilter(query, MDC, MMD).envelopes;
    var env := SortByLower(es);
    var k :| 0 <= k < |query| && Kept(query[k], MDC, MMD);
    assert es[k] in env;
    NormalizedNonEmpty(query[k].confs);
    assert query[k].confs[0].mass >= 0.0;
    SentinelsGetNoChunk(env, MTD, chunkIds, bounds);
    forall i | 0 <= i < |query| && !Kept(query[i], MDC, MMD) ensures chunkIds[i] == -1 {
      assert es[i] in env;
      var p :| 0 <= p < |env| && env[p] == es[i];
    }
  }
}

=== FILE: prefilter.dfy ===
/** The candidate pre-filter of `estimate_proportions` and the sort of the resulting envelope
    entries by their lower bound. */
module Prefiltering {
  import opened Spectra

  /** A theoretical spectrum as the pre-filter sees it. `confs` is its peak list; `mode` is the
      mass of its modal peak, `current` the experimental ion current inside
      [lowest mass - MTD, highest mass + MTD], and `closest` the mass of the experimental peak
      nearest to `mode`. The last three are computed by spectrum helpers outside this model and
      enter as given values. */
  datatype Candidate = Candidate(confs: seq<Peak>, mode: real, current: real, closest: real)

  /** An envelope entry `(mn, mx, i)`: lowest and highest mass of candidate `i`, or the
      sentinel bounds `(-1, -1)` for a rejected candidate. */
  datatype Envelope = Envelope(lo: real, hi: real, id: nat)

  const Sentinel: real := -1.0

  function Abs(x: real): real
  {
    if x < 0.0 then -x else x
  }

  /** Enough experimental ion current near the envelope; switched off by `MDC == 0`. */
  predicate MatchingCurrent(c: Candidate, MDC: real)
  {
    MDC == 0.0 || c.current >= MDC
  }

  /** An experimental peak close enough to the modal mass; switched off by `MMD == -1`. */
  predicate MatchingMode(c: Candidate, MMD: real)
  {
    MMD == -1.0 || Abs(c.closest - c.mode) <= MMD
  }

  predicate Kept(c: Candidate, MDC: real, MMD: real)
  {
    MatchingMode(c, MMD) && MatchingCurrent(c, MDC)
  }

  function Lowest(c: Candidate): real
    requires |c.confs| > 0
  {
    c.confs[0].mass
  }

  function Highest(c: Candidate): real
    requires |c.confs| > 0
  {
    c.confs[|c.confs| - 1].mass
  }

  /** The outcome of the pre-filter: one envelope entry per candidate, in query order, and the
      indices of the rejected candidates. */
  datatype Filtering = Filtering(envelopes: seq<Envelope>, filtered: seq<nat>)

  /** The filtering loop: candidate `i` contributes `(mn, mx, i)` when both heuristics pass,
      and otherwise `(-1, -1, i)` together with an entry `i` in the filtered list. */
  function Prefilter(query: seq<Candidate>, MDC: real, MMD: real): (f: Filtering)
    requires forall i :: 0 <= i < |query| ==> |query[i].confs| > 0
    ensures |f.envelopes| == |query|
    ensures forall i :: 0 <= i < |query| && Kept(query[i], MDC, MMD) ==>
              f.envelopes[i] == Envelope(Lowest(query[i]), Highest(query[i]), i)
    ensures forall i :: 0 <= i < |query| && !Kept(query[i], MDC, MMD) ==>
              f.envelopes[i] == Envelope(Sentinel, Sentinel, i)
    ensures StrictlyIncreasingNats(f.filtered)
    ensures forall t :: 0 <= t < |f.filtered| ==> f.filtered[t] < |query|
    ensures forall i :: 0 <= i < |query| ==> (i in f.filtered <==> !Kept(query[i], MDC, MMD))
  {
    if |query| == 0 then Filtering([], [])
    else
      var i := |query| - 1;
      var c := query[i];
      var f := Prefilter(query[..i], MDC, MMD);
      if Kept(c, MDC, MMD) then
        Filtering(f.envelopes + [Envelope(Lowest(c), Highest(c), i)], f.filtered)
      else
        Filtering(f.envelopes + [Envelope(Sentinel, Sentinel, i)], f.filtered + [i])
  }

  /** With `MDC == 0` and `MMD == -1` both heuristics are off and every candidate survives. */
  lemma {:induction false} NoFilteringWhenDisabled(query: seq<Candidate>)
    requires forall i :: 0 <= i < |query| ==> |query[i].confs| > 0
    ensures Prefilter(query, 0.0, -1.0).filtered == []
    ensures forall i :: 0 <= i < |query| ==>
              Prefilter(query, 0.0, -1.0).envelopes[i] == Envelope(Lowest(query[i]), Highest(query[i]), i)
  {
    var f := Prefilter(query, 0.0, -1.0).filtered;
    // no index is filtered, so the multiset of `f`, whose size is `|f|`, is empty
    assert forall i :: i in multiset(f) <==> i in f;
    assert forall i :: i !in multiset(f);
    assert multiset(f) == multiset{};
  }

  /** Masses are non-negative, so the sentinel lower bound marks exactly the filtered
      candidates. */
  lemma {:induction false} SentinelMarksFiltered(query: seq<Candidate>, MDC: real, MMD: real)
    requires forall i :: 0 <= i < |query| ==> |query[i].confs| > 0
    requires forall i, k :: 0 <= i < |query| && 0 <= k < |query[i].confs| ==> query[i].confs[k].mass >= 0.0
    ensures forall i :: 0 <= i < |query| ==>
              (Prefilter(query, MDC, MMD).envelopes[i].lo == Sentinel <==> i in Prefilter(query, MDC, MMD).filtered)
  {
  }

  predicate SortedByLower(s: seq<Envelope>)
  {
    forall i, j :: 0 <= i < j < |s| ==> s[i].lo <= s[j].lo
  }

  /** Entries with equal lower bounds keep their original (index) order. */
  predicate StableByLower(s: seq<Envelope>)
  {
    forall i, j :: 0 <= i < j < |s| && s[i].lo == s[j].lo ==> s[i].id < s[j].id
  }

  predicate IdsIncreasing(s: seq<Envelope>)
  {
    forall i, j :: 0 <= i < j < |s| ==> s[i].id < s[j].id
  }

  predicate DistinctIds(s: seq<Envelope>)
  {
    forall i, j :: 0 <= i < j < |s| ==> s[i].id != s[j].id
  }

  /** Places `e` before the first entry whose lower bound is not below its own. */
  function InsertByLower(e: Envelope, s: seq<Envelope>): (r: seq<Envelope>)
    requires SortedByLower(s)
    ensures |r| == |s| + 1
    ensures r[0] == e || (|s| > 0 && r[0] == s[0])
    ensures SortedByLower(r)
    ensures multiset(r) == multiset(s) + multiset{e}
  {
    if |s| == 0 || e.lo <= s[0].lo then [e] + s
    else
      var rest := InsertByLower(e, s[1..]);
      assert s == [s[0]] + s[1..];
      assert multiset(s) == multiset{s[0]} + multiset(s[1..]);
      ConsSorted(s[0], rest);
      [s[0]] + rest
  }

  /** An entry whose lower bound is at most the head's keeps a sorted sequence sorted. */
  lemma {:induction false} ConsSorted(x: Envelope, rest: seq<Envelope>)
    requires SortedByLower(rest) && |rest| > 0 && x.lo <= rest[0].lo
    ensures SortedByLower([x] + rest)
  {
    var r := [x] + rest;
    forall i, j | 0 <= i < j < |r| ensures r[i].lo <= r[j].lo {
      if i == 0 {
        assert rest[0].lo <= rest[j - 1].lo;
      } else {
        assert r[i] == rest[i - 1] && r[j] == rest[j - 1];
      }
    }
  }

  lemma {:induction false} InsertMembers(e: Envelope, s: seq<Envelope>)
    requires SortedByLower(s)
    ensures forall t :: 0 <= t < |InsertByLower(e, s)| ==>
              InsertByLower(e, s)[t] == e || InsertByLower(e, s)[t] in s
  {
    var r := InsertByLower(e, s);
    forall t | 0 <= t < |r| ensures r[t] == e || r[t] in s {
      assert r[t] in multiset(r);
    }
  }

  lemma {:induction false} InsertKeepsStable(e: Envelope, s: seq<Envelope>)
    requires SortedByLower(s) && StableByLower(s)
    requires forall t :: 0 <= t < |s| ==> e.id < s[t].id
    ensures StableByLower(InsertByLower(e, s))
  {
    if |s| > 0 && e.lo > s[0].lo {
      InsertKeepsStable(e, s[1..]);
      InsertMembers(e, s[1..]);
      var rest := InsertByLower(e, s[1..]);
      forall t | 0 <= t < |rest| && s[0].lo == rest[t].lo ensures s[0].id < rest[t].id {
        var u :| 0 <= u < |s[1..]| && s[1..][u] == rest[t];
        assert s[u + 1] == rest[t];
      }
    }
  }

  lemma {:induction false} InsertKeepsDistinct(e: Envelope, s: seq<Envelope>)
    requires SortedByLower(s) && DistinctIds(s)
    requires forall t :: 0 <= t < |s| ==> e.id != s[t].id
    ensures DistinctIds(InsertByLower(e, s))
  {
    if |s| > 0 && e.lo > s[0].lo {
      InsertKeepsDistinct(e, s[1..]);
      InsertMembers(e, s[1..]);
      var rest := InsertByLower(e, s[1..]);
      forall t | 0 <= t < |rest| ensures s[0].id != rest[t].id {
        if rest[t] != e {
          var u :| 0 <= u < |s[1..]| && s[1..][u] == rest[t];
          assert s[u + 1] == rest[t];
        }
      }
    }
  }

  /** The sort of the envelopes on their lower bound, which keeps envelopes with equal
      lower bounds in their original order. */
  function SortByLower(es: seq<Envelope>): (r: seq<Envelope>)
    ensures |r| == |es|
    ensures SortedByLower(r)
    ensures multiset(r) == multiset(es)
  {
    if |es| == 0 then []
    else
      var rest := SortByLower(es[1..]);
      assert es == [es[0]] + es[1..];
      var r := InsertByLower(es[0], rest);
      assert |r| == |multiset(r)|;
      r
  }

  /** Python's sort is stable: entries with equal lower bounds stay in index order, and no
      entry is duplicated. */
  lemma {:induction false} SortIsStable(es: seq<Envelope>)
    requires IdsIncreasing(es)
    ensures StableByLower(SortByLower(es)) && DistinctIds(SortByLower(es))
  {
    if |es| > 0 {
      SortIsStable(es[1..]);
      var rest := SortByLower(es[1..]);
      forall t | 0 <= t < |rest| ensures es[0].id < rest[t].id {
        assert rest[t] in multiset(es[1..]);
        var u :| 0 <= u < |es[1..]| && es[1..][u] == rest[t];
        assert es[u + 1] == rest[t];
      }
      InsertKeepsStable(es[0], rest);
      InsertKeepsDistinct(es[0], rest);
    }
  }

  /** Sorting neither loses nor invents an entry. */
  lemma {:induction false} SortKeepsMembers(es: seq<Envelope>)
    ensures forall i :: 0 <= i < |es| ==> es[i] in SortByLower(es)
    ensures forall e :: e in SortByLower(es) ==> e in es
  {
    var r := SortByLower(es);
    forall i | 0 <= i < |es| ensures es[i] in r {
      assert es[i] in multiset(es);
    }
    forall e | e in r ensures e in es {
      assert e in multiset(r);
    }
  }
}

=== FILE: resampler.dfy ===
/** The intensity resampler (`intensity_generator`): a merge-like walk that lays a sparse
    peak list onto a sorted mass axis, one intensity per axis point. */
module Resampler {
  import opened Spectra
  import opened Wrappers

  /** The intensity a peak list records at mass `m`: that of the first peak with this mass, or 0. */
  function IntensityAt(confs: seq<Peak>, m: real): real
  {
    if |confs| == 0 then 0.0
    else if confs[0].mass == m then confs[0].intensity
    else IntensityAt(confs[1..], m)
  }

  lemma {:induction false} IntensityAtAbsent(confs: seq<Peak>, m: real)
    requires forall k :: 0 <= k < |confs| ==> confs[k].mass != m
    ensures IntensityAt(confs, m) == 0.0
  {
    if |confs| > 0 {
      IntensityAtAbsent(confs[1..], m);
    }
  }

  lemma {:induction false} IntensityAtPeak(confs: seq<Peak>, k: nat)
    requires SortedPeaks(confs)
    requires k < |confs|
    ensures IntensityAt(confs, confs[k].mass) == confs[k].intensity
  {
    if k > 0 {
      IntensityAtPeak(confs[1..], k - 1);
    }
  }

  /** Reference for the resampler: the dense, zero-filled intensity vector over `axis`. */
  function Dense(confs: seq<Peak>, axis: seq<real>): (v: seq<real>)
    ensures |v| == |axis|
  {
    seq(|axis|, i requires 0 <= i < |axis| => IntensityAt(confs, axis[i]))
  }

  /** Over a strictly increasing axis, the dense vector carries each peak's intensity at the
      axis point equal to its mass and 0 at every axis point that is no peak's mass. */
  lemma {:induction false} DenseValues(confs: seq<Peak>, axis: seq<real>)
    requires SortedPeaks(confs)
    ensures forall i, k :: 0 <= i < |axis| && 0 <= k < |confs| && axis[i] == confs[k].mass ==>
              Dense(confs, axis)[i] == confs[k].intensity
    ensures forall i :: 0 <= i < |axis| && axis[i] !in Masses(confs) ==> Dense(confs, axis)[i] == 0.0
  {
    forall i, k | 0 <= i < |axis| && 0 <= k < |confs| && axis[i] == confs[k].mass
      ensures Dense(confs, axis)[i] == confs[k].intensity
    {
      IntensityAtPeak(confs, k);
    }
    forall i | 0 <= i < |axis| && axis[i] !in Masses(confs)
      ensures Dense(confs, axis)[i] == 0.0
    {
      assert forall k :: 0 <= k < |confs| ==> confs[k].mass != axis[i] by {
        forall k | 0 <= k < |confs| ensures confs[k].mass != axis[i] {
          assert Masses(confs)[k] == confs[k].mass;
        }
      }
      IntensityAtAbsent(confs, axis[i]);
    }
  }

  /** The generator itself, drained into a sequence. It yields zeros while the axis lies below
      the next peak, the peak's intensity on an exact mass match, skips a peak whose mass is not
      on the axis, stops as soon as the axis is exhausted, and pads the tail with zeros. With an
      empty axis and a nonempty peak list the first axis access fails, which is `None` here. */
  method IntensityGenerator(confs: seq<Peak>, axis: seq<real>) returns (r: Option<seq<real>>)
    requires SortedPeaks(confs)
    requires StrictlyIncreasing(axis)
    ensures r.None? <==> |axis| == 0 && |confs| > 0
    ensures r.Some? ==> r.value == Dense(confs, axis)
  {
    if |axis| == 0 && |confs| > 0 {
      return None;
    }
    var out: seq<real> := [];
    var id := 0;
    var j := 0;
    while j < |confs|
      invariant 0 <= j <= |confs|
      invariant 0 <= id <= |axis| && |out| == id
      invariant j < |confs| ==> id < |axis|
      invariant forall i :: 0 <= i < id ==> out[i] == IntensityAt(confs, axis[i])
      invariant id < |axis| ==> forall k :: 0 <= k < j ==> confs[k].mass < axis[id]
    {
      var p := confs[j];
      while axis[id] < p.mass
        invariant id < |axis| && |out| == id
        invariant forall i :: 0 <= i < id ==> out[i] == IntensityAt(confs, axis[i])
        invariant forall k :: 0 <= k < j ==> confs[k].mass < axis[id]
        decreases |axis| - id
      {
        IntensityAtAbsent(confs, axis[id]);
        out := out + [0.0];
        id := id + 1;
        if id == |axis| {
          return Some(out);
        }
      }
      if axis[id] == p.mass {
        IntensityAtPeak(confs, j);
        out := out + [p.intensity];
        id := id + 1;
        if id == |axis| {
          return Some(out);
        }
      }
      j := j + 1;
    }
    while id < |axis|
      invariant 0 <= id <= |axis| && |out| == id
      invariant forall i :: 0 <= i < id ==> out[i] == IntensityAt(confs, axis[i])
      invariant id < |axis| ==> forall k :: 0 <= k < |confs| ==> confs[k].mass < axis[id]
    {
      IntensityAtAbsent(confs, axis[id]);
      out := out + [0.0];
      id := id + 1;
    }
    return Some(out);
  }
}

=== FILE: spectra.dfy ===
/** Peaks, peak lists and the sums the deconvolution bookkeeping is built from. */
module Spectra {

  /** One peak of a spectrum: a mass (m/z) and the ion current observed there. */
  datatype Peak = Peak(mass: real, intensity: real)

  /** The masses of a peak list, in order. */
  function Masses(confs: seq<Peak>): (ms: seq<real>)
    ensures |ms| == |confs|
    ensures forall i :: 0 <= i < |confs| ==> ms[i] == confs[i].mass
  {
    seq(|confs|, i requires 0 <= i < |confs| => confs[i].mass)
  }

  predicate StrictlyIncreasing(xs: seq<real>)
  {
    forall i, j :: 0 <= i < j < |xs| ==> xs[i] < xs[j]
  }

  predicate StrictlyIncreasingNats(xs: seq<nat>)
  {
    forall i, j :: 0 <= i < j < |xs| ==> xs[i] < xs[j]
  }

  /** A spectrum's peak list is sorted by mass with every mass occurring once. */
  predicate SortedPeaks(confs: seq<Peak>)
  {
    StrictlyIncreasing(Masses(confs))
  }

  /** Sum of a sequence, accumulated from the back so that appending one term is one unfolding. */
  function Sum(xs: seq<real>): real
  {
    if |xs| == 0 then 0.0 else Sum(xs[..|xs| - 1]) + xs[|xs| - 1]
  }

  lemma {:induction false} SumSnoc(xs: seq<real>, x: real)
    ensures Sum(xs + [x]) == Sum(xs) + x
  {
    assert (xs + [x])[..|xs|] == xs;
  }

  lemma {:induction false} SumAppend(xs: seq<real>, ys: seq<real>)
    ensures Sum(xs + ys) == Sum(xs) + Sum(ys)
    decreases |ys|
  {
    if |ys| == 0 {
      assert xs + ys == xs;
    } else {
      var ys' := ys[..|ys| - 1];
      var y := ys[|ys| - 1];
      assert ys == ys' + [y];
      assert xs + ys == (xs + ys') + [y];
      SumAppend(xs, ys');
      SumSnoc(xs + ys', y);
      SumSnoc(ys', y);
    }
  }

  /** Overwriting one term changes the sum by the difference. */
  lemma {:induction false} SumUpdate(xs: seq<real>, j: nat, x: real)
    requires j < |xs|
    ensures Sum(xs[j := x]) == Sum(xs) - xs[j] + x
    decreases |xs|
  {
    var n := |xs| - 1;
    if j == n {
      assert xs[j := x][..n] == xs[..n];
    } else {
      assert xs[j := x][..n] == xs[..n][j := x];
      SumUpdate(xs[..n], j, x);
    }
  }

  /** A sequence of zeros sums to zero. */
  lemma {:induction false} SumAllZero(xs: seq<real>)
    requires forall i :: 0 <= i < |xs| ==> xs[i] == 0.0
    ensures Sum(xs) == 0.0
    decreases |xs|
  {
    if |xs| > 0 {
      SumAllZero(xs[..|xs| - 1]);
    }
  }

  /** The intensities of a peak list, in order. */
  function Intensities(confs: seq<Peak>): (xs: seq<real>)
    ensures |xs| == |confs|
    ensures forall i :: 0 <= i < |confs| ==> xs[i] == confs[i].intensity
  {
    seq(|confs|, i requires 0 <= i < |confs| => confs[i].intensity)
  }

  /** Total ion current of a peak list. */
  function TotalIntensity(confs: seq<Peak>): real
  {
    Sum(Intensities(confs))
  }

  lemma {:induction false} TotalIntensitySnoc(confs: seq<Peak>, p: Peak)
    ensures TotalIntensity(confs + [p]) == TotalIntensity(confs) + p.intensity
  {
    assert Intensities(confs + [p]) == Intensities(confs) + [p.intensity];
    SumSnoc(Intensities(confs), p.intensity);
  }

  /** The intensities of the peaks selected by a list of indices, in the list's order. */
  function IntensitiesAt(confs: seq<Peak>, ids: seq<nat>): (xs: seq<real>)
    requires forall t :: 0 <= t < |ids| ==> ids[t] < |confs|
    ensures |xs| == |ids|
    ensures forall t :: 0 <= t < |ids| ==> xs[t] == confs[ids[t]].intensity
  {
    seq(|ids|, t requires 0 <= t < |ids| => confs[ids[t]].intensity)
  }

  /** Total ion current of the peaks selected by a list of indices. */
  function SumAt(confs: seq<Peak>, ids: seq<nat>): real
    requires forall t :: 0 <= t < |ids| ==> ids[t] < |confs|
  {
    Sum(IntensitiesAt(confs, ids))
  }

  lemma {:induction false} SumAtSnoc(confs: seq<Peak>, ids: seq<nat>, i: nat)
    requires forall t :: 0 <= t < |ids| ==> ids[t] < |confs|
    requires i < |confs|
    ensures SumAt(confs, ids + [i]) == SumAt(confs, ids) + confs[i].intensity
  {
    assert IntensitiesAt(confs, ids + [i]) == IntensitiesAt(confs, ids) + [confs[i].intensity];
    SumSnoc(IntensitiesAt(confs, ids), confs[i].intensity);
  }
}

=== FILE: splitting.dfy ===
/** Splitting the experimental spectrum over the chunks of `estimate_proportions`: one pass
    over the experimental peaks sends each to the current chunk's index list or straight to
    the noise vector, and each chunk's ion current is then summed. */
module Splitting {
  import opened Spectra
  import opened Chunking

  predicate NonDecreasingMasses(exp: seq<Peak>)
  {
    forall i, j :: 0 <= i <= j < |exp| ==> exp[i].mass <= exp[j].mass
  }

  /** Mass `m` lies in the interval `b`, both ends included. */
  predicate Inside(b: Bound, m: real)
  {
    b.lo <= m <= b.hi
  }

  predicate InNoChunk(bounds: seq<Bound>, m: real)
  {
    forall c :: 0 <= c < |bounds| ==> !Inside(bounds[c], m)
  }

  /** The peaks are in mass order and the chunk intervals ascend without overlap, as the
      pipeline provides them. */
  predicate Ordered(exp: seq<Peak>, bounds: seq<Bound>)
  {
    NonDecreasingMasses(exp) && AscendingDisjoint(bounds)
  }

  /** Peak index `i` appears on some chunk's list. */
  predicate Listed(lists: seq<seq<nat>>, i: nat)
  {
    |lists| > 0 && (i in lists[|lists| - 1] || Listed(lists[..|lists| - 1], i))
  }

  lemma {:induction false} ListedIff(lists: seq<seq<nat>>, i: nat)
    ensures Listed(lists, i) <==> exists c :: 0 <= c < |lists| && i in lists[c]
  {
    if |lists| > 0 {
      var init := lists[..|lists| - 1];
      ListedIff(init, i);
      if exists c :: 0 <= c < |lists| && i in lists[c] {
        var c :| 0 <= c < |lists| && i in lists[c];
        if c < |init| {
          assert i in init[c];
        }
      }
      if exists c :: 0 <= c < |init| && i in init[c] {
        var c :| 0 <= c < |init| && i in init[c];
        assert i in lists[c];
      }
    }
  }

  /** No list holds an index at or above a bound all its entries respect. */
  lemma {:induction false} ListedBelow(lists: seq<seq<nat>>, n: nat)
    requires IndicesBelow(lists, n)
    ensures !Listed(lists, n)
  {
    ListedIff(lists, n);
    forall c | 0 <= c < |lists| ensures n !in lists[c] {
      assert forall t :: 0 <= t < |lists[c]| ==> lists[c][t] < n;
    }
  }

  /** Read one after another, the lists are strictly increasing. */
  predicate ListsIncreasing(lists: seq<seq<nat>>)
  {
    forall c1, t1, c2, t2 ::
      (0 <= c1 < |lists| && 0 <= t1 < |lists[c1]| && 0 <= c2 < |lists| && 0 <= t2 < |lists[c2]| &&
       (c1 < c2 || (c1 == c2 && t1 < t2))) ==> lists[c1][t1] < lists[c2][t2]
  }

  predicate IndicesBelow(lists: seq<seq<nat>>, n: nat)
  {
    forall c, t :: 0 <= c < |lists| && 0 <= t < |lists[c]| ==> lists[c][t] < n
  }

  /** `chunk_TICs`: the experimental ion current on each chunk's list. */
  function ChunkTotals(exp: seq<Peak>, lists: seq<seq<nat>>): (tics: seq<real>)
    requires IndicesBelow(lists, |exp|)
    ensures |tics| == |lists|
    ensures forall c :: 0 <= c < |lists| ==> tics[c] == SumAt(exp, lists[c])
  {
    if |lists| == 0 then []
    else ChunkTotals(exp, lists[..|lists| - 1]) + [SumAt(exp, lists[|lists| - 1])]
  }

  lemma {:induction false} ChunkTotalsSnoc(exp: seq<Peak>, lists: seq<seq<nat>>, m: seq<nat>)
    requires IndicesBelow(lists + [m], |exp|)
    ensures IndicesBelow(lists, |exp|)
    ensures Sum(ChunkTotals(exp, lists + [m])) == Sum(ChunkTotals(exp, lists)) + SumAt(exp, m)
  {
    assert (lists + [m])[..|lists|] == lists;
    forall c, t | 0 <= c < |lists| && 0 <= t < |lists[c]| ensures lists[c][t] < |exp| {
      assert lists[c] == (lists + [m])[c];
    }
    assert m == (lists + [m])[|lists|];
    SumSnoc(ChunkTotals(exp, lists), SumAt(exp, m));
  }

  /** What holds after the first `id` peaks, with `lists` the closed chunk lists followed by
      the one being filled: every listed peak lies in its chunk's interval, the lists ascend,
      and a peak is noise exactly when it is not listed (so no ion current is lost, as
      `SplitConserves` shows). When the input is ordered, the chunks already left lie below
      every peak still to come, and every noise peak lies outside every chunk. */
  ghost predicate SplitInv(exp: seq<Peak>, bounds: seq<Bound>, lists: seq<seq<nat>>, vortex: seq<real>, id: nat)
  {
    && 0 < |lists| <= |bounds|
    && id <= |exp|
    && IndicesBelow(lists, id)
    && ListsInBounds(exp, bounds, lists)
    && ListsIncreasing(lists)
    && vortex == NoiseVector(exp, lists, id)
    && (Ordered(exp, bounds) ==> PassedBelow(exp, bounds, lists, id))
    && (Ordered(exp, bounds) ==> NoiseOutside(exp, bounds, lists, id))
  }

  predicate ListsInBounds(exp: seq<Peak>, bounds: seq<Bound>, lists: seq<seq<nat>>)
    requires |lists| <= |bounds| && IndicesBelow(lists, |exp|)
  {
    forall c, t :: 0 <= c < |lists| && 0 <= t < |lists[c]| ==> Inside(bounds[c], exp[lists[c][t]].mass)
  }

  /** The noise vector after the first `n` peaks: a listed peak leaves zero, any other peak
      its own intensity. */
  function NoiseVector(exp: seq<Peak>, lists: seq<seq<nat>>, n: nat): seq<real>
    requires n <= |exp|
  {
    seq(n, i requires 0 <= i < n => if Listed(lists, i) then 0.0 else exp[i].intensity)
  }

  predicate PassedBelow(exp: seq<Peak>, bounds: seq<Bound>, lists: seq<seq<nat>>, id: nat)
    requires |lists| <= |bounds|
  {
    forall c, i :: 0 <= c < |lists| - 1 && id <= i < |exp| ==> bounds[c].hi < exp[i].mass
  }

  predicate NoiseOutside(exp: seq<Peak>, bounds: seq<Bound>, lists: seq<seq<nat>>, id: nat)
    requires id <= |exp|
  {
    forall i :: 0 <= i < id && !Listed(lists, i) ==> InNoChunk(bounds, exp[i].mass)
  }

  lemma {:induction false} ListedExtend(chunks: seq<seq<nat>>, matching: seq<nat>, x: nat, i: nat)
    ensures Listed(chunks + [matching + [x]], i) <==> Listed(chunks + [matching], i) || i == x
  {
    assert (chunks + [matching + [x]])[..|chunks|] == chunks;
    assert (chunks + [matching])[..|chunks|] == chunks;
    assert i in matching + [x] <==> i in matching || i == x;
  }

  lemma {:induction false} ListedClose(lists: seq<seq<nat>>, i: nat)
    ensures Listed(lists + [[]], i) <==> Listed(lists, i)
  {
    assert (lists + [[]])[..|lists|] == lists;
  }

  /** Moving on to the next chunk keeps the invariant. */
  lemma {:induction false} SplitInvAdvance(exp: seq<Peak>, bounds: seq<Bound>, lists: seq<seq<nat>>, vortex: seq<real>, id: nat)
    requires SplitInv(exp, bounds, lists, vortex, id)
    requires id < |exp| && bounds[|lists| - 1].hi < exp[id].mass && |lists| < |bounds|
    ensures SplitInv(exp, bounds, lists + [[]], vortex, id)
  {
    var next := lists + [[]];
    forall i | 0 <= i < id ensures Listed(next, i) <==> Listed(lists, i) {
      ListedClose(lists, i);
    }
    assert NoiseVector(exp, next, id) == NoiseVector(exp, lists, id);
    assert ListsIncreasing(next);
  }

  /** Listing peak `id` on the current chunk keeps the invariant. */
  lemma {:induction false} SplitInvList(exp: seq<Peak>, bounds: seq<Bound>, chunks: seq<seq<nat>>, matching: seq<nat>, vortex: seq<real>, id: nat)
    requires SplitInv(exp, bounds, chunks + [matching], vortex, id)
    requires id < |exp| && Inside(bounds[|chunks|], exp[id].mass)
    ensures SplitInv(exp, bounds, chunks + [matching + [id]], vortex + [0.0], id + 1)
  {
    var lists := chunks + [matching];
    var next := chunks + [matching + [id]];
    ExtendShape(exp, bounds, chunks, matching, id);
    ExtendNoise(exp, bounds, chunks, matching, id);
  }

  lemma {:induction false} ExtendShape(exp: seq<Peak>, bounds: seq<Bound>, chunks: seq<seq<nat>>, matching: seq<nat>, id: nat)
    requires |chunks| < |bounds| && id < |exp| && IndicesBelow(chunks + [matching], id)
    requires ListsInBounds(exp, bounds, chunks + [matching]) && ListsIncreasing(chunks + [matching])
    requires Inside(bounds[|chunks|], exp[id].mass)
    ensures IndicesBelow(chunks + [matching + [id]], id + 1)
    ensures ListsInBounds(exp, bounds, chunks + [matching + [id]])
    ensures ListsIncreasing(chunks + [matching + [id]])
  {
    var lists := chunks + [matching];
    var next := chunks + [matching + [id]];
    assert forall c, t :: 0 <= c < |next| && 0 <= t < |next[c]| ==>
      (next[c][t] == id && c == |chunks|) || (t < |lists[c]| && next[c][t] == lists[c][t]);
  }

  lemma {:induction false} ExtendNoise(exp: seq<Peak>, bounds: seq<Bound>, chunks: seq<seq<nat>>, matching: seq<nat>, id: nat)
    requires id < |exp| && IndicesBelow(chunks + [matching], id)
    requires Ordered(exp, bounds) ==> NoiseOutside(exp, bounds, chunks + [matching], id)
    ensures NoiseVector(exp, chunks + [matching + [id]], id + 1) == NoiseVector(exp, chunks + [matching], id) + [0.0]
    ensures Ordered(exp, bounds) ==> NoiseOutside(exp, bounds, chunks + [matching + [id]], id + 1)
  {
    forall i | 0 <= i <= id
      ensures Listed(chunks + [matching + [id]], i) <==> Listed(chunks + [matching], i) || i == id
    {
      ListedExtend(chunks, matching, id, i);
    }
  }

  lemma {:induction false} TotalIntensityPrefix(exp: seq<Peak>, id: nat)
    requires id < |exp|
    ensures TotalIntensity(exp[..id + 1]) == TotalIntensity(exp[..id]) + exp[id].intensity
  {
    assert exp[..id + 1] == exp[..id] + [exp[id]];
    TotalIntensitySnoc(exp[..id], exp[id]);
  }

  /** The index bound of the lists being filled, split into its parts and extended by `id`. */
  lemma {:induction false} ExtendIndices(chunks: seq<seq<nat>>, matching: seq<nat>, id: nat, n: nat)
    requires id < n && IndicesBelow(chunks + [matching], id)
    ensures IndicesBelow(chunks, n)
    ensures forall t :: 0 <= t < |matching| ==> matching[t] < n
    ensures IndicesBelow(chunks + [matching], n)
    ensures IndicesBelow(chunks + [matching + [id]], n)
  {
    var lists := chunks + [matching];
    var next := chunks + [matching + [id]];
    assert IndicesBelow(chunks, n) by {
      assert forall c :: 0 <= c < |chunks| ==> chunks[c] == lists[c];
    }
    assert forall t :: 0 <= t < |matching| ==> matching[t] < n by {
      assert matching == lists[|chunks|];
    }
    assert IndicesBelow(next, n) by {
      assert forall c :: 0 <= c < |chunks| ==> next[c] == chunks[c];
      assert next[|chunks|] == matching + [id];
    }
  }

  lemma {:induction false} TotalsExtend(exp: seq<Peak>, chunks: seq<seq<nat>>, matching: seq<nat>, id: nat)
    requires id < |exp| && IndicesBelow(chunks, |exp|)
    requires forall t :: 0 <= t < |matching| ==> matching[t] < |exp|
    requires IndicesBelow(chunks + [matching], |exp|) && IndicesBelow(chunks + [matching + [id]], |exp|)
    ensures Sum(ChunkTotals(exp, chunks + [matching + [id]])) == Sum(ChunkTotals(exp, chunks + [matching])) + exp[id].intensity
  {
    ChunkTotalsSnoc(exp, chunks, matching);
    ChunkTotalsSnoc(exp, chunks, matching + [id]);
    SumAtSnoc(exp, matching, id);
  }

  /** Sending peak `id` to the noise vector keeps the invariant. */
  lemma {:induction false} SplitInvNoise(exp: seq<Peak>, bounds: seq<Bound>, chunks: seq<seq<nat>>, matching: seq<nat>, vortex: seq<real>, id: nat)
    requires SplitInv(exp, bounds, chunks + [matching], vortex, id)
    requires id < |exp| && |chunks| < |bounds| && !Inside(bounds[|chunks|], exp[id].mass)
    requires bounds[|chunks|].hi < exp[id].mass ==> |chunks| == |bounds| - 1
    ensures SplitInv(exp, bounds, chunks + [matching], vortex + [exp[id].intensity], id + 1)
  {
    var lists := chunks + [matching];
    var cur := |chunks|;
    var m := exp[id].mass;
    if Ordered(exp, bounds) {
      forall c | 0 <= c < |bounds| ensures !Inside(bounds[c], m) {
        if c > cur {
          assert bounds[cur].lo <= bounds[cur].hi < bounds[c].lo;
        }
      }
    }
    ListedBelow(lists, id);
    assert NoiseVector(exp, lists, id + 1) == vortex + [exp[id].intensity];
  }

  /** Dropping the last list keeps the lists ascending and their index bound. */
  lemma {:induction false} DropLastList(lists: seq<seq<nat>>, n: nat)
    requires |lists| > 0 && IndicesBelow(lists, n) && ListsIncreasing(lists)
    ensures IndicesBelow(lists[..|lists| - 1], n) && ListsIncreasing(lists[..|lists| - 1])
  {
    var init := lists[..|lists| - 1];
    assert forall c :: 0 <= c < |init| ==> init[c] == lists[c];
  }

  /** The lists with the last entry of the last list taken off. */
  function Retract(lists: seq<seq<nat>>): (prev: seq<seq<nat>>)
    requires |lists| > 0 && |lists[|lists| - 1]| > 0
    ensures |prev| == |lists|
    ensures lists == prev[..|lists| - 1] + [prev[|lists| - 1] + [lists[|lists| - 1][|lists[|lists| - 1]| - 1]]]
  {
    var last := lists[|lists| - 1];
    var prev := lists[..|lists| - 1] + [last[..|last| - 1]];
    assert prev[..|lists| - 1] == lists[..|lists| - 1];
    assert last == last[..|last| - 1] + [last[|last| - 1]];
    assert lists == lists[..|lists| - 1] + [last];
    prev
  }

  /** With the lists ascending, the last entry of a nonempty last list is the largest entry:
      taking it off leaves the lists ascending and every entry below it. */
  lemma {:induction false} DropLastEntry(lists: seq<seq<nat>>)
    requires |lists| > 0 && |lists[|lists| - 1]| > 0 && ListsIncreasing(lists)
    ensures IndicesBelow(Retract(lists), lists[|lists| - 1][|lists[|lists| - 1]| - 1])
    ensures ListsIncreasing(Retract(lists))
  {
    var c := |lists| - 1;
    var t := |lists[c]| - 1;
    var prev := Retract(lists);
    forall c', t' | 0 <= c' < |prev| && 0 <= t' < |prev[c']|
      ensures t' < |lists[c']| && prev[c'][t'] == lists[c'][t'] && prev[c'][t'] < lists[c][t]
    {
      if c' < c {
        assert prev[c'] == lists[c'];
      } else {
        assert prev[c'] == lists[c][..t];
      }
    }
    forall c1, t1, c2, t2 | 0 <= c1 < |prev| && 0 <= t1 < |prev[c1]| && 0 <= c2 < |prev| && 0 <= t2 < |prev[c2]| &&
                            (c1 < c2 || (c1 == c2 && t1 < t2))
      ensures prev[c1][t1] < prev[c2][t2]
    {
      assert lists[c1][t1] < lists[c2][t2];
    }
  }

  /** When the last entry of the last list is not `n - 1`, no entry is. */
  lemma {:induction false} LastBelow(lists: seq<seq<nat>>, n: nat)
    requires n > 0 && IndicesBelow(lists, n) && ListsIncreasing(lists)
    requires |lists| > 0 ==> |lists[|lists| - 1]| > 0
    requires |lists| > 0 ==> lists[|lists| - 1][|lists[|lists| - 1]| - 1] != n - 1
    ensures IndicesBelow(lists, n - 1)
  {
    if |lists| > 0 {
      var c := |lists| - 1;
      var t := |lists[c]| - 1;
      forall c', t' | 0 <= c' < |lists| && 0 <= t' < |lists[c']| ensures lists[c'][t'] < n - 1 {
        if c' < c || t' < t {
          assert lists[c'][t'] < lists[c][t];
        }
      }
    }
  }

  /** The ion current the lists and the noise vector account for after the first `n` peaks. */
  ghost predicate SharesOut(exp: seq<Peak>, lists: seq<seq<nat>>, n: nat)
    requires n <= |exp| && IndicesBelow(lists, |exp|)
  {
    Sum(ChunkTotals(exp, lists)) + Sum(NoiseVector(exp, lists, n)) == TotalIntensity(exp[..n])
  }

  /** Closing an empty list changes neither the totals nor the noise vector. */
  lemma {:induction false} SharesOutClose(exp: seq<Peak>, lists: seq<seq<nat>>, n: nat)
    requires n <= |exp| && IndicesBelow(lists, n) && ListsIncreasing(lists)
    requires |lists| > 0 && lists[|lists| - 1] == []
    ensures IndicesBelow(lists, |exp|) && SharesOut(exp, lists, n)
    decreases n, |lists|, 0
  {
    var init := lists[..|lists| - 1];
    DropLastList(lists, n);
    SplitConserves(exp, init, n);
    assert init + [[]] == lists;
    ChunkTotalsSnoc(exp, init, []);
    forall i | 0 <= i < n ensures Listed(lists, i) <==> Listed(init, i) {
      ListedClose(init, i);
    }
    assert NoiseVector(exp, lists, n) == NoiseVector(exp, init, n);
  }

  /** Peak `n - 1`, listed last, moves its intensity from the noise vector to its chunk. */
  lemma {:induction false} RetractStep(exp: seq<Peak>, lists: seq<seq<nat>>, n: nat)
    requires 0 < n <= |exp| && IndicesBelow(lists, n)
    requires |lists| > 0 && |lists[|lists| - 1]| > 0 && lists[|lists| - 1][|lists[|lists| - 1]| - 1] == n - 1
    requires IndicesBelow(Retract(lists), n - 1) && IndicesBelow(Retract(lists), |exp|)
    requires SharesOut(exp, Retract(lists), n - 1)
    ensures IndicesBelow(lists, |exp|) && SharesOut(exp, lists, n)
  {
    var x := n - 1;
    var prev := Retract(lists);
    var init := prev[..|lists| - 1];
    var m := prev[|lists| - 1];
    assert prev == init + [m];
    TotalIntensityPrefix(exp, x);
    ExtendIndices(init, m, x, |exp|);
    TotalsExtend(exp, init, m, x);
    forall i | 0 <= i < n ensures Listed(lists, i) <==> Listed(prev, i) || i == x {
      ListedExtend(init, m, x, i);
    }
    assert NoiseVector(exp, lists, n) == NoiseVector(exp, prev, x) + [0.0];
    SumSnoc(NoiseVector(exp, prev, x), 0.0);
  }

  lemma {:induction false} SharesOutListed(exp: seq<Peak>, lists: seq<seq<nat>>, n: nat)
    requires 0 < n <= |exp| && IndicesBelow(lists, n) && ListsIncreasing(lists)
    requires |lists| > 0 && |lists[|lists| - 1]| > 0 && lists[|lists| - 1][|lists[|lists| - 1]| - 1] == n - 1
    ensures IndicesBelow(lists, |exp|) && SharesOut(exp, lists, n)
    decreases n, |lists|, 0
  {
    DropLastEntry(lists);
    SplitConserves(exp, Retract(lists), n - 1);
    RetractStep(exp, lists, n);
  }

  /** Peak `n - 1`, listed nowhere, adds its intensity to the noise vector. */
  lemma {:induction false} SharesOutNoise(exp: seq<Peak>, lists: seq<seq<nat>>, n: nat)
    requires 0 < n <= |exp| && IndicesBelow(lists, n) && ListsIncreasing(lists)
    requires |lists| > 0 ==> |lists[|lists| - 1]| > 0
    requires |lists| > 0 ==> lists[|lists| - 1][|lists[|lists| - 1]| - 1] != n - 1
    ensures IndicesBelow(lists, |exp|) && SharesOut(exp, lists, n)
    decreases n, |lists|, 0
  {
    var x := n - 1;
    LastBelow(lists, n);
    SplitConserves(exp, lists, x);
    TotalIntensityPrefix(exp, x);
    ListedBelow(lists, x);
    assert NoiseVector(exp, lists, n) == NoiseVector(exp, lists, x) + [exp[x].intensity];
    SumSnoc(NoiseVector(exp, lists, x), exp[x].intensity);
  }

  /** The lists and the noise vector share out the ion current of the first `n` peaks: a peak
      listed nowhere counts as noise, and since the lists ascend no peak is listed twice. */
  lemma {:induction false} SplitConserves(exp: seq<Peak>, lists: seq<seq<nat>>, n: nat)
    requires n <= |exp| && IndicesBelow(lists, n) && ListsIncreasing(lists)
    ensures IndicesBelow(lists, |exp|)
    ensures SharesOut(exp, lists, n)
    decreases n, |lists|, 1
  {
    if |lists| > 0 && lists[|lists| - 1] != [] {
      if lists[|lists| - 1][|lists[|lists| - 1]| - 1] == n - 1 {
        SharesOutListed(exp, lists, n);
      } else {
        SharesOutNoise(exp, lists, n);
      }
    } else if |lists| > 0 {
      SharesOutClose(exp, lists, n);
    } else if n == 0 {
      assert NoiseVector(exp, lists, 0) == [];
      assert exp[..0] == [];
    } else {
      SharesOutNoise(exp, lists, n);
    }
  }

  lemma {:induction false} SplitInvInit(exp: seq<Peak>, bounds: seq<Bound>)
    requires |bounds| > 0
    ensures SplitInv(exp, bounds, [[]], [], 0)
  {
    assert NoiseVector(exp, [[]], 0) == [];
  }

  lemma {:induction false} SplitInvFinal(exp: seq<Peak>, bounds: seq<Bound>, lists: seq<seq<nat>>, vortex: seq<real>)
    requires SplitInv(exp, bounds, lists, vortex, |exp|)
    ensures 1 <= |lists| <= |bounds| && |vortex| == |exp|
    ensures IndicesBelow(lists, |exp|)
    ensures forall c, t :: 0 <= c < |lists| && 0 <= t < |lists[c]| ==> Inside(bounds[c], exp[lists[c][t]].mass)
    ensures ListsIncreasing(lists)
    ensures forall i :: 0 <= i < |exp| ==> vortex[i] == (if Listed(lists, i) then 0.0 else exp[i].intensity)
    ensures Sum(ChunkTotals(exp, lists)) + Sum(vortex) == TotalIntensity(exp)
    ensures Ordered(exp, bounds) ==>
              forall i :: 0 <= i < |exp| ==> (Listed(lists, i) <==> !InNoChunk(bounds, exp[i].mass))
  {
    assert exp[..|exp|] == exp;
    SplitConserves(exp, lists, |exp|);
    if Ordered(exp, bounds) {
      forall i | 0 <= i < |exp| && Listed(lists, i) ensures !InNoChunk(bounds, exp[i].mass) {
        ListedIff(lists, i);
        var c :| 0 <= c < |lists| && i in lists[c];
        var t :| 0 <= t < |lists[c]| && lists[c][t] == i;
        assert Inside(bounds[c], exp[lists[c][t]].mass);
      }
    }
  }

  /** The inner `while` of the split: move past every chunk whose upper end lies below the
      mass of peak `id`, closing the list being filled each time, but never past the last
      chunk. */
  method SkipPassedChunks(exp: seq<Peak>, bounds: seq<Bound>, chunks0: seq<seq<nat>>, matching0: seq<nat>,
                          vortex: seq<real>, id: nat)
    returns (chunks: seq<seq<nat>>, matching: seq<nat>)
    requires id < |exp| && |chunks0| < |bounds|
    requires SplitInv(exp, bounds, chunks0 + [matching0], vortex, id)
    ensures |chunks0| <= |chunks| < |bounds|
    ensures SplitInv(exp, bounds, chunks + [matching], vortex, id)
    ensures bounds[|chunks|].hi < exp[id].mass ==> |chunks| == |bounds| - 1
  {
    chunks, matching := chunks0, matching0;
    ghost var lists := chunks + [matching];
    var cur := |chunks|;
    var curBound := bounds[cur];
    while curBound.hi < exp[id].mass && cur < |bounds| - 1
      invariant |chunks0| <= |chunks| == cur < |bounds| && curBound == bounds[cur]
      invariant lists == chunks + [matching]
      invariant SplitInv(exp, bounds, lists, vortex, id)
      decreases |bounds| - cur
    {
      SplitInvAdvance(exp, bounds, lists, vortex, id);
      chunks := chunks + [matching];
      matching := [];
      lists := lists + [[]];
      cur := cur + 1;
      curBound := bounds[cur];
    }
  }

  /** One turn of the loop over the experimental peaks: skip the chunks passed, then list
      peak `id` on the current chunk if its interval holds the peak, else send the peak's
      intensity to the noise vector. */
  method SplitStep(exp: seq<Peak>, bounds: seq<Bound>, chunks0: seq<seq<nat>>, matching0: seq<nat>,
                   vortex0: seq<real>, id: nat)
    returns (chunks: seq<seq<nat>>, matching: seq<nat>, vortex: seq<real>)
    requires id < |exp| && |chunks0| < |bounds|
    requires SplitInv(exp, bounds, chunks0 + [matching0], vortex0, id)
    ensures |chunks| < |bounds|
    ensures SplitInv(exp, bounds, chunks + [matching], vortex, id + 1)
  {
    var x := exp[id];
    chunks, matching := SkipPassedChunks(exp, bounds, chunks0, matching0, vortex0, id);
    var curBound := bounds[|chunks|];
    if curBound.lo <= x.mass <= curBound.hi {
      SplitInvList(exp, bounds, chunks, matching, vortex0, id);
      matching := matching + [id];
      vortex := vortex0 + [0.0];
    } else {
      SplitInvNoise(exp, bounds, chunks, matching, vortex0, id);
      vortex := vortex0 + [x.intensity];
    }
  }

  /** The split. Every peak ends up either on exactly one chunk's list, inside that chunk's
      interval, or in the noise vector with its own intensity; the lists ascend; their ion
      currents plus the noise add up to the spectrum's total. There may be fewer lists than
      chunk bounds: chunks after the last peak get none. For ordered input a peak is noise
      exactly when no chunk interval contains it. */
  method SplitExperimental(exp: seq<Peak>, bounds: seq<Bound>) returns (chunks: seq<seq<nat>>, vortex: seq<real>)
    requires |bounds| > 0
    ensures 1 <= |chunks| <= |bounds| && |vortex| == |exp|
    ensures IndicesBelow(chunks, |exp|)
    ensures forall c, t :: 0 <= c < |chunks| && 0 <= t < |chunks[c]| ==> Inside(bounds[c], exp[chunks[c][t]].mass)
    ensures ListsIncreasing(chunks)
    ensures forall i :: 0 <= i < |exp| ==> vortex[i] == (if Listed(chunks, i) then 0.0 else exp[i].intensity)
    ensures Sum(ChunkTotals(exp, chunks)) + Sum(vortex) == TotalIntensity(exp)
    ensures Ordered(exp, bounds) ==>
              forall i :: 0 <= i < |exp| ==> (Listed(chunks, i) <==> !InNoChunk(bounds, exp[i].mass))
  {
    chunks := [];
    vortex := [];
    var matching: seq<nat> := [];
    SplitInvInit(exp, bounds);
    assert chunks + [matching] == [[]];
    var id := 0;
    while id < |exp|
      invariant |chunks| < |bounds|
      invariant SplitInv(exp, bounds, chunks + [matching], vortex, id)
    {
      chunks, matching, vortex := SplitStep(exp, bounds, chunks, matching, vortex, id);
      id := id + 1;
    }
    chunks := chunks + [matching];
    SplitInvFinal(exp, bounds, chunks, vortex);
  }
}

=== FILE: wrappers.dfy ===
/** Failure-carrying wrappers used where the modelled code raises or returns early. */
module Wrappers {

  /** A value that may be absent. */
  datatype Option<+T> = None | Some(value: T)

  /** Either a value or the error that stopped the computation. */
  datatype Result<+T, +E> = Ok(value: T) | Err(error: E)
}
